=== FILE: README.md ===
# Home inventory analyser — a Dafny model of its core

The application lets a user photograph a room and get back a list of the
items in it, each with a description and an estimated price. The browser
page checks the chosen file and posts it to the `/api/analyze` route. The
route checks the file again, asks a vision model to describe the picture in
a fixed "Item: / Description: / Estimated Price:" format, and turns the
model's free text into records. The page then shows the records and their
estimated total value, and can export the result as a multi-page PDF.

This project models the deterministic logic of that core:

- `wrappers.dfy` (`Wrappers`): the `Option` type.
- `text.dfy` (`Text`): the JavaScript string primitives the code relies on.
  These are the `\s` whitespace set, `trim`, ASCII `toLowerCase`,
  `startsWith` and `split`.
- `clean.dfy` (`Clean`): `cleanText`. Its two line-anchored `replace` calls
  are modelled as left-to-right scans. The scan decides "start of line"
  from the input string, as the `m` flag does. `trim` follows.
- `analysis.dfy` (`Analysis`): `parseAnalysisText`, and the `POST`
  handler's choice among the error replies, the parsed items and the
  fallback record.
- `upload.dfy` (`Upload`): the type and size checks made on both the page
  and the route.
- `valuation.dfy` (`Valuation`): `calculateTotal`, including the `/\d+/g`
  digit runs and the decimal value of a run.
- `pagination.dfy` (`Pagination`): the page loop of `downloadPDF`.
- `examples.dfy` (`Examples`) and `total_examples.dfy` (`TotalExamples`):
  worked inputs, each proved for its exact result.

Two external parts are passed in as parameters:

- `JSON.parse` is `jsonParse: string -> Option<Json>`, where `None` means
  it threw.
- The model call is `modelText: Option<string>`, where `None` means the
  call threw.

Three behaviours of the code are easy to misread. The model follows the
code in each of them.

- Cleaning is not idempotent. Each `replace` pass removes only one marker
  per line. `Clean.CleanTextNotIdempotent` shows that "- - Sofa" cleans to
  "- Sofa", which cleans again to "Sofa".
- A field's value is not everything after the first colon.
  `split(":")[1]` keeps only the text between the first and the second
  colon. So "Price: $100: firm" gives the price "$100"
  (`Analysis.FieldValueBetweenColons`, `Examples.SecondColonCutsValue`).
- The total can fail. `calculateTotal` throws on a record without a price,
  and the line parser can produce such records. This is recorded under
  Findings.

## Model

| member | source | states |
|---|---|---|
| Text.TrimIsTrimOf | app/api/analyze/route.ts:19 | The trim of a string is a contiguous slice of it. Only whitespace lies outside that slice, and the slice neither starts nor ends with whitespace. |
| Text.TrimIdempotent | app/api/analyze/route.ts:19 | Trimming a trimmed string changes nothing. |
| Text.TrimPadded | app/api/analyze/route.ts:45 | Trimming whitespace padding off a value with no whitespace at its ends gives back exactly the value. |
| Text.SplitJoin | app/api/analyze/route.ts:33 | `split("\n")` undoes joining lines with "\n" when no line contains a "\n". |
| Text.SplitCount | app/api/analyze/route.ts:33 | `split` yields more than one part exactly when the separator occurs. |
| Text.LowerIdempotent | app/api/analyze/route.ts:40 | Lower-casing a lower-cased string changes nothing. |
| Clean.MarkerMatch | app/api/analyze/route.ts:17 | `^[*â€¢-]\s*` matches exactly when the line starts with one of the five marker characters. The match then covers the marker and all whitespace after it. |
| Clean.NumberMatch | app/api/analyze/route.ts:18 | `^\s*[\d]+\.\s*` matches exactly when leading whitespace is followed by at least one digit and then a dot. |
| Clean.NumberMatchLength | app/api/analyze/route.ts:18 | A numbered-prefix match covers the leading whitespace, every digit, the dot and all whitespace after it. |
| Clean.Strip | app/api/analyze/route.ts:17-18 | A deletion pass never makes the text longer. What it keeps and deletes is stated by `StripDeletesOnly`, `StripKeepsLine`, `StripMatchedLine` and `StripCrossingMatch`, with `IndentedNumberSurvives` and `UnindentedNumberStripped` as worked inputs. |
| Clean.StripDeletesOnly | app/api/analyze/route.ts:17-18 | A deletion pass only deletes: what it keeps is a subsequence of its input. |
| Clean.CleanText | app/api/analyze/route.ts:15-20 | The cleaned text is never longer than the input and has no whitespace at either end. |
| Clean.CleanTextDeletesAndTrims | app/api/analyze/route.ts:15-20 | The cleaned text only deletes characters from the input, so it is a subsequence of it and never longer. It has no whitespace at either end and is the trim of the two passes. |
| Clean.StripUnchangedIff | app/api/analyze/route.ts:17-18 | A pass leaves the text unchanged if and only if its pattern matches at no line start. When it does match, the text gets strictly shorter. |
| Clean.StripMatchedLine | app/api/analyze/route.ts:17-18 | When a match begins at a line start and ends inside that line, the pass deletes exactly the match. It keeps the rest of the line and its terminator, and scans the next line from its start. So at most one prefix goes per line. |
| Clean.StripCrossingMatch | app/api/analyze/route.ts:17-18 | When a match begins at a line start and its whitespace runs past the line's terminator, the pass deletes the whole line, the terminator and the start of the next line. The scan resumes at a line start only if the match ends on a line terminator. On a line that is not all whitespace, what the match takes from the next line is whitespace. |
| Clean.IndentedNumberSurvives | app/api/analyze/route.ts:18 | "1. \n  2. x" cleans to "2. x": the first number's trailing whitespace takes the line break and the indentation, so the second number no longer starts a line and survives. |
| Clean.UnindentedNumberStripped | app/api/analyze/route.ts:18 | "1.\n2. x" cleans to "x": the match ends on the line break, so the next line's number is also deleted. |
| Clean.StripKeepsLine | app/api/analyze/route.ts:17-18 | A line at whose start no match begins passes through unchanged, with its terminator. The next line is scanned from its start. |
| Clean.CleanTextFixedPoint | app/api/analyze/route.ts:15-20 | Text with no marker and no numbered prefix at any line start, and no whitespace at its ends, comes through cleaning unchanged. |
| Clean.CleanPlainText | app/api/analyze/route.ts:15-20 | Lines joined by "\n" come through cleaning unchanged when each line is free of line terminators, is non-empty, starts with no whitespace, digit or marker, and does not end in whitespace. |
| Clean.MarkerStrippedOnce | app/api/analyze/route.ts:17 | "- - Sofa" cleans to "- Sofa": one pass removes one marker. |
| Clean.NumberStrippedOnce | app/api/analyze/route.ts:18 | "1. 2. Sofa" cleans to "2. Sofa". |
| Clean.CleanTextNotIdempotent | app/api/analyze/route.ts:15-20 | For every marker, space and plain rest, cleaning a doubled marker leaves one marker. Cleaning again removes it, so cleaning twice differs from cleaning once. |
| Analysis.KeyCount | app/api/analyze/route.ts:54 | `Object.keys(currentItem).length` is at most 3, and it is 3 exactly when name, description and price are all set. |
| Analysis.Classify | app/api/analyze/route.ts:40-52 | A line recognised as a name, description or price line contains a colon. Which key selects which kind is stated by `ClassifyNameKey`, `ClassifyDescriptionKey` and `ClassifyPriceKey`. |
| Analysis.ClassifyNameKey | app/api/analyze/route.ts:40 | A line that starts with "item:" or "name:", in any letter case and whatever follows, is a name line. |
| Analysis.ClassifyDescriptionKey | app/api/analyze/route.ts:46 | A line that starts with "description:", in any letter case and whatever follows, is a description line. |
| Analysis.ClassifyPriceKey | app/api/analyze/route.ts:48-52 | A line that starts with "price:", "estimated price:" or "cost:", in any letter case and whatever follows, is a price line. |
| Analysis.ClassifyIgnoresCase | app/api/analyze/route.ts:40-52 | A line and its lower-cased form fall into the same kind (name, description, price or other). |
| Analysis.ColonOfPrefix | app/api/analyze/route.ts:40-52 | A line whose lower-cased form starts with a key ending in ":" contains a colon. |
| Analysis.FieldValue | app/api/analyze/route.ts:45 | `split(":")[1]?.trim()` is defined exactly when the line contains a colon. The value then holds no colon and is already trimmed. |
| Analysis.FieldValueBetweenColons | app/api/analyze/route.ts:53 | With a second colon, the value is the trimmed text between the first two colons. The rest of the line is lost. |
| Analysis.FieldValueAfterOnlyColon | app/api/analyze/route.ts:47 | With a single colon, the value is the trimmed text after it. |
| Analysis.TokenizeKeyLine | app/api/analyze/route.ts:37-53 | A line "key: value" with a recognised key yields that field with exactly the value. |
| Analysis.Tokenize | app/api/analyze/route.ts:37-53 | A line that yields a field has a recognised kind and contains a colon. The field's value holds no colon and has no whitespace at either end. The per-line trim is stated by `TokenizeIgnoresPadding`, and the value of a recognised `key: value` line by `TokenizeKeyLine`. |
| Text.TrimIgnoresPadding | app/api/analyze/route.ts:37 | Whitespace added before and after a string does not change its trim. |
| Analysis.TokenizeIgnoresPadding | app/api/analyze/route.ts:37 | A line indented or followed by whitespace yields the same token as the bare line. |
| Analysis.ParseAnalysisText | app/api/analyze/route.ts:23-68 | The outcome is the JSON value exactly when `JSON.parse` accepts the cleaned text. Otherwise it is the line scan's records, or nothing exactly when the scan found none. A heuristic outcome is never empty. |
| Analysis.PlainTextParse | app/api/analyze/route.ts:25-66 | On plain lines that are not JSON, the parser's outcome is the scan of the lines' own tokens, with cleaning removing nothing. |
| Analysis.ScanAppend | app/api/analyze/route.ts:36-59 | Scanning two groups of lines in a row is the same as scanning their concatenation. |
| Analysis.StepNameLine | app/api/analyze/route.ts:40-45 | A name line pushes the current record exactly when its name is truthy, then opens a record holding only the new name. After a falsy name it renames the current record instead. |
| Analysis.StepPriceLine | app/api/analyze/route.ts:48-57 | A price line pushes the priced record and starts an empty one exactly when the record already has a name and a description, truthy or not. Otherwise it only sets the price. |
| Analysis.PromptedFormatRoundTrip | app/api/analyze/route.ts:36-66 | The name, description and price lines of any list of complete records scan back to exactly that list, in order. Empty names and descriptions are kept, and no record is left open at the end. |
| Analysis.Step | app/api/analyze/route.ts:38-58 | One line pushes at most one record and never alters the records already pushed. A record is pushed only by a name line, when the current record has a truthy name, or by a price line that completes all three keys. `StepNameLine` and `StepPriceLine` state the converse: such lines do push, and they say what the current record becomes. |
| Analysis.Scan | app/api/analyze/route.ts:36-59 | Records once pushed are never altered or removed, and each line pushes at most one. |
| Analysis.Finish | app/api/analyze/route.ts:61-64 | The last record is appended exactly when its name is truthy. Nothing else changes. |
| Analysis.ParseLines | app/api/analyze/route.ts:33-64 | Every record the line scan returns carries a name field. |
| Analysis.KeepFields | app/api/analyze/route.ts:38 | The kept tokens are all fields and are a subsequence of the line tokens. Every field token is kept, as often as it occurs. |
| Analysis.SkippedLinesIgnored | app/api/analyze/route.ts:38-58 | Empty lines and lines with no recognised key have no effect on the scan. |
| Analysis.NothingRecognisedIsNoData | app/api/analyze/route.ts:62-66 | If `JSON.parse` fails and no line has a recognised key, the parser returns `null`. The route then replies with the single fallback record. |
| Analysis.ParsedNamesInSourceOrder | app/api/analyze/route.ts:36-64 | The names of the returned records are a subsequence of the name-line values, in line order. |
| Analysis.SelectReply | app/api/analyze/route.ts:126-140 | A truthy parse result is returned as is. A falsy JSON value or `null` is replaced by the fallback record "Analysis Result" / cleaned text / "N/A". Any records reply is non-empty. |
| Analysis.HandleAnalyze | app/api/analyze/route.ts:79-145 | A missing file gives 400 "No image file provided". A file failing the checks gives 400. A failed or empty model reply gives 500. The reply is OK exactly when the file passes and the model returns non-empty text, and then it is `SelectReply` of that text. |
| Upload.CheckUpload | app/page.tsx:48-56 | Accepted exactly for an `image/` type of at most 4 MiB. A non-image is rejected first; an oversized image is rejected for size. |
| Upload.ServerError | app/api/analyze/route.ts:86-92 | The route rejects exactly the files the check rejects, always with status 400. |
| Upload.ClientServerAgree | app/api/analyze/route.ts:86-92 | The page and the route accept the same files and reject for the same reason. |
| Upload.SizeBoundary | app/page.tsx:53 | 4·1024·1024 bytes is accepted; one byte more is too large. |
| Upload.TypeCheckedFirst | app/page.tsx:48-51 | A non-image gets the type message on both sides, whatever its size. |
| Valuation.DigitRuns | app/page.tsx:35 | Every match of `/\d+/g` is a non-empty run of digits. |
| Valuation.WeaveRunsAndGaps | app/page.tsx:35 | The runs, with the text between them, reassemble the price string. |
| Valuation.RunsAndGapsSeparated | app/page.tsx:35 | The gaps hold no digit, and consecutive runs are separated by a non-empty gap. |
| Valuation.DigitRunsOfWeave | app/page.tsx:35 | Matching `/\d+/g` on digit runs placed in digit-free, non-empty gaps finds exactly those runs again, so the round trip is exact. |
| Valuation.NoRunsIffNoDigit | app/page.tsx:35-36 | `match` returns `null` exactly when the string has no digit. |
| Valuation.DecimalValueOfNumeral | app/page.tsx:38 | `Number` of the decimal numeral of n is n. |
| Valuation.LeadingZeroIgnored | app/page.tsx:38 | A leading zero does not change a run's value. |
| Valuation.PriceValue | app/page.tsx:32-38 | An item's contribution is never negative. |
| Valuation.PriceValueBounds | app/page.tsx:32-38 | An item adds nothing for "N/A" or a digit-free price. Otherwise it adds a value between its first two numbers, or its single number. The value is never negative. |
| Valuation.PositiveValueHasDigits | app/page.tsx:33-36 | A positive contribution comes only from a price other than "N/A" that has a digit. |
| Valuation.Total | app/page.tsx:30-42 | The total of priced items is never negative. |
| Valuation.TotalAppend | app/page.tsx:31-41 | The total of two lists of items in a row is the sum of their totals. |
| Valuation.TotalIsSum | app/page.tsx:31-41 | The left fold equals the sum taken from the right, so the order of accumulation does not matter. |
| Valuation.TotalMonotone | app/page.tsx:31-41 | Adding items never lowers the total. |
| Valuation.FallbackTotalIsZero | app/page.tsx:33 | The fallback record, priced "N/A", totals zero. |
| Valuation.ItemValue | app/page.tsx:32-38 | With a missing price counted as nothing, an item adds a non-negative value, equal to its price's value when it has one. |
| Valuation.LenientTotalAgrees | app/page.tsx:30-42 | On priced items, the total that tolerates missing prices equals the page's total. |
| Valuation.UnpricedAddNothing | app/page.tsx:32-33 | Items without a price add nothing to the lenient total. |
| Valuation.LenientTotal | app/page.tsx:30-42 | The total that tolerates missing prices is defined for every list of records and is never negative. |
| TotalExamples.RangeExample | app/page.tsx:38 | "$800-1200" counts as 1000. |
| TotalExamples.ManyNumbersExample | app/page.tsx:38 | "1-2-3-4" counts as 1.5: only the first two numbers are read. |
| TotalExamples.ThousandsSeparatorExample | app/page.tsx:35-38 | "$1,200" counts as 100.5, because the comma splits it into the numbers 1 and 200. |
| TotalExamples.SinglePriceExample | app/page.tsx:38 | "$50" counts as 50. |
| TotalExamples.ThreeItemTotal | app/page.tsx:30-42 | "$800-1200", "$50" and "N/A" total 1050. |
| TotalExamples.TotalThree | app/page.tsx:31-41 | Three priced items total the sum of their three values. |
| TotalExamples.ParsedItemsMayLackPrice | app/page.tsx:32-35 | When `JSON.parse` fails, the reply "Item: a\nItem: b" reaches the page as two records without a price, so the page's total cannot be taken. |
| Pagination.PageCount | app/page.tsx:122-136 | The loop runs no times exactly when the image height is negative. |
| Pagination.Paginate | app/page.tsx:122-137 | The loop draws `PageCount` pages. Page k is a new page exactly when k > 0, and shows the whole image shifted up by k page heights. |
| Pagination.CountFromBounds | app/page.tsx:126-136 | The loop runs k times exactly when the last page starts within the image and the k pages reach past its end. |
| Pagination.PagesCoverImage | app/page.tsx:122-137 | A non-negative height gets at least one page, and the pages together reach past the image's end. |
| Pagination.ExactMultipleAddsBlankPage | app/page.tsx:126 | When the height is an exact multiple n of the page height, n + 1 pages are drawn. The last one starts at the image's lower edge and shows nothing of it. |
| Examples.SofaExample | app/api/analyze/route.ts:36-66 | When `JSON.parse` fails, "Item: Sofa\nDescription: Brown\nPrice: $100" parses to exactly one complete record. |
| Examples.ParsePromptedRecord | app/api/analyze/route.ts:36-66 | When `JSON.parse` fails, three plain lines that tokenize to the name, description and price of a complete record parse to exactly that one record. |
| Examples.LeatherSofaExample | app/api/analyze/route.ts:36-66 | When `JSON.parse` fails, the example reply that the prompt gives the model (app/api/analyze/route.ts:106-108, "Estimated Price:" key included) parses to exactly one record: "Leather Sofa", "Brown leather 3-seater sofa with tufted back", "$800-1200". |
| Examples.IndentedTemplateLine | app/api/analyze/route.ts:37-53 | The template's price line, indented as the prompt indents it (app/api/analyze/route.ts:103-108) or by any other whitespace, yields the price field "$800-1200". |
| Examples.EmptyNameExample | app/api/analyze/route.ts:45-57 | "Item:" gives the empty name. The record is still completed by the price line, because key counting counts a present but empty field. |
| Examples.TwoNamesExample | app/api/analyze/route.ts:40-64 | A second name line pushes the first record, and the last one is added at the end. This gives two name-only records in order. |
| Examples.FieldBeforeNameExample | app/api/analyze/route.ts:40-64 | A description before any name line is kept and joins the record that the later name starts. |
| Examples.EmptyNameRenamedExample | app/api/analyze/route.ts:40-64 | "Item:\nItem: b" gives the single record named "b". The empty name is falsy, so the second name line renames the record instead of pushing it. |
| Examples.EmptyNameAloneExample | app/api/analyze/route.ts:40-66 | "Item:" alone gives `null`: the falsy name keeps the last record out. |
| Examples.SecondColonCutsValue | app/api/analyze/route.ts:53 | "Price: $100: firm" has the price "$100". |

## Findings

| source | as written | input that shows it | evidently intended | confidence | as-written member | corrected member |
|---|---|---|---|---|---|---|
| app/page.tsx:30-42 | `calculateTotal` calls `priceStr.match` on every item's price. It throws when a record has no price, and the page renders the total for every non-empty item list. | When JSON parsing fails, the model reply "Item: a\nItem: b" gives two records without `estimatedPrice`. | A record without a price contributes 0, as "N/A" and digit-free prices do. | medium; not executed | TotalExamples.ParsedItemsMayLackPrice | Valuation.LenientTotal |

## Left out

- The Gemini client, the `GOOGLE_API_KEY` check, `FormData` and the base64 encoding of the file are I/O. The model's answer is the parameter `modelText`, and the key check is outside `HandleAnalyze`.
- The JSON grammar is left out. `JSON.parse` is the parameter `jsonParse`, and the shape of a JSON reply is not checked, by the page or by this model.
- html2canvas, jsPDF and the canvas aspect ratio are external drawing calls. The page loop takes the image and page heights as exact reals.
- Pagination.Paginate: floating-point subtraction is not modelled. The heights are exact reals, so a float rounding that adds or drops a page is not represented. Heights that are not finite are not modelled either. A NaN height (a canvas with no width and no height) ends the loop at once. An infinite height never ends it: a canvas of width 0 and positive height gives an infinite aspect ratio (app/page.tsx:117-119), so `heightLeft` stays infinite and the loop at app/page.tsx:126 keeps adding pages without end.
- `heightOnCurrentPage` is computed and never used, so it has no counterpart.
- Valuation.Total: `Number` and floating-point addition are modelled as exact arithmetic on naturals and reals. Runs longer than a double holds exactly are therefore valued exactly, and `toLocaleString` formatting is not modelled.
- Valuation.Total requires every record to carry a price. The page's function instead throws on a missing one; see Findings.
- Text.Lower: `toLowerCase` is modelled for ASCII letters only. No non-ASCII character lowers into any of the recognised keys, so classification is unaffected.
- Strings are sequences of Unicode scalar values, not of the UTF-16 code units JavaScript uses, so a lone surrogate has no counterpart here. Every character the core tests for lies in the Basic Multilingual Plane: the `\s` set, digits, the line terminators, the colon and the markers. A character outside it is one `char` here and a surrogate pair in JavaScript; neither unit of the pair is in any of those classes, so both forms are kept or dropped alike. Marker characters are taken literally from the source's character class, which is mis-encoded: `*`, `â`, `€`, `¢` and `-`.
- The React state, hooks, scroll handlers, animations and the file-picker event are presentation only. app/layout.tsx holds fonts and metadata and no logic, so it is not part of this model.

=== FILE: analysis.dfy ===
/** `parseAnalysisText` and the result selection of `POST`
    (app/api/analyze/route.ts): the model's reply is cleaned, offered to
    `JSON.parse`, and, when that throws, scanned line by line for
    `Item:` / `Description:` / `Price:` fields. */
module Analysis {
  import opened Wrappers
  import opened Text
  import opened Clean
  import opened Upload

  /** A value as `JSON.parse` returns it. JSON numbers are never NaN. */
  datatype Json =
    | JNull
    | JBool(b: bool)
    | JNumber(n: real)
    | JString(s: string)
    | JArray(elements: seq<Json>)
    | JObject(members: seq<(string, Json)>)

  /** JavaScript truthiness of a parsed value: `null`, `false`, `0` and `""`
      are falsy, every array and object is truthy. */
  predicate Truthy(j: Json)
  {
    match j
    case JNull => false
    case JBool(b) => b
    case JNumber(n) => n != 0.0
    case JString(s) => s != ""
    case JArray(_) => true
    case JObject(_) => true
  }

  /** An item as the line scan builds it (the `AnalyzedItem` shape of
      app/page.tsx). `None` is a key never assigned; `Some("")` is a key
      assigned the empty string. */
  datatype Record = Record(item: Option<string>, description: Option<string>, estimatedPrice: Option<string>)

  const EmptyRecord := Record(None, None, None)

  /** `Object.keys(record).length`. */
  function KeyCount(r: Record): (n: nat)
    ensures n <= 3
    ensures n == 3 <==> r.item.Some? && r.description.Some? && r.estimatedPrice.Some?
  {
    (if r.item.Some? then 1 else 0)
    + (if r.description.Some? then 1 else 0)
    + (if r.estimatedPrice.Some? then 1 else 0)
  }

  /** The record's name is truthy: assigned and not empty. */
  predicate HasName(r: Record)
  {
    r.item.Some? && r.item.value != ""
  }

  // ---------------------------------------------------------------------------
  // One line

  /** Which field a trimmed line assigns, by its case-insensitive prefix. */
  datatype LineKind = NameLine | DescriptionLine | PriceLine | OtherLine

  function Classify(line: string): (k: LineKind)
    ensures k != OtherLine ==> ':' in line
  {
    var low := Lower(line);
    if StartsWith(low, "item:") || StartsWith(low, "name:") then
      ColonOfPrefix(line, "item:");
      ColonOfPrefix(line, "name:");
      NameLine
    else if StartsWith(low, "description:") then
      ColonOfPrefix(line, "description:");
      DescriptionLine
    else if StartsWith(low, "price:") || StartsWith(low, "estimated price:") || StartsWith(low, "cost:") then
      ColonOfPrefix(line, "price:");
      ColonOfPrefix(line, "estimated price:");
      ColonOfPrefix(line, "cost:");
      PriceLine
    else OtherLine
  }

  /** Lower-casing works character by character, so a lowered line begins
      with its lowered first part. */
  lemma LowerOfPrefix(key: string, rest: string)
    ensures StartsWith(Lower(key + rest), Lower(key))
  {
    var low := Lower(key + rest);
    forall i | 0 <= i < |key|
      ensures low[i] == Lower(key)[i]
    {
      assert (key + rest)[i] == key[i];
    }
    assert low[..|key|] == Lower(key);
  }

  /** `Item:` and `Name:`, in any letter case and whatever follows, make a
      name line. */
  lemma ClassifyNameKey(key: string, rest: string)
    requires Lower(key) == "item:" || Lower(key) == "name:"
    ensures Classify(key + rest) == NameLine
  {
    LowerOfPrefix(key, rest);
  }

  /** `Description:`, in any letter case and whatever follows, makes a
      description line. */
  lemma ClassifyDescriptionKey(key: string, rest: string)
    requires Lower(key) == "description:"
    ensures Classify(key + rest) == DescriptionLine
  {
    LowerOfPrefix(key, rest);
    var low := Lower(key + rest);
    assert low[0] == 'd';
  }

  /** `Price:`, `Estimated Price:` and `Cost:`, in any letter case and
      whatever follows, make a price line: none of them starts like a name
      or description key. */
  lemma ClassifyPriceKey(key: string, rest: string)
    requires Lower(key) == "price:" || Lower(key) == "estimated price:" || Lower(key) == "cost:"
    ensures Classify(key + rest) == PriceLine
  {
    LowerOfPrefix(key, rest);
    var low := Lower(key + rest);
    assert low[0] == Lower(key)[0];
    assert low[0] == 'p' || low[0] == 'e' || low[0] == 'c';
  }

  lemma ColonOfPrefix(line: string, prefix: string)
    requires |prefix| > 0 && prefix[|prefix| - 1] == ':'
    ensures StartsWith(Lower(line), prefix) ==> ':' in line
  {
    if StartsWith(Lower(line), prefix) {
      var i := |prefix| - 1;
      assert Lower(line)[i] == prefix[i];
      assert line[i] == ':';
    }
  }

  /** `line.split(":")[1]?.trim()`: the trimmed text between the first and
      the second colon, or up to the end when there is no second colon;
      `None` (JavaScript `undefined`) when the line has no colon. */
  function FieldValue(line: string): (v: Option<string>)
    ensures v.Some? <==> ':' in line
    ensures v.Some? ==> ':' !in v.value && Trim(v.value) == v.value
  {
    var parts := Split(line, ':');
    SplitCount(line, ':');
    if |parts| > 1 then
      TrimAddsNothing(parts[1], ':');
      TrimIdempotent(parts[1]);
      Some(Trim(parts[1]))
    else None
  }

  /** The value is the text between the first and the second colon,
      trimmed: anything after a second colon is lost. */
  lemma FieldValueBetweenColons(key: string, v: string, rest: string)
    requires ':' !in key && ':' !in v
    ensures FieldValue(key + [':'] + v + [':'] + rest) == Some(Trim(v))
  {
    var line := key + [':'] + v + [':'] + rest;
    assert line == key + [':'] + (v + [':'] + rest);
    SplitFirst(key, ':', v + [':'] + rest);
    SplitFirst(v, ':', rest);
  }

  /** With a single colon the value is everything after it, trimmed. */
  lemma FieldValueAfterOnlyColon(key: string, v: string)
    requires ':' !in key && ':' !in v
    ensures FieldValue(key + [':'] + v) == Some(Trim(v))
  {
    SplitFirst(key, ':', v);
    SplitWithoutSeparator(v, ':');
  }

  /** What one line of the loop amounts to: a field assignment of some kind
      and value, or nothing (`continue` for a blank line, or no prefix). */
  datatype Token = Field(kind: LineKind, value: string) | Skip

  /** `cleanLine = line.trim()` and the prefix tests of the loop body. */
  function Tokenize(rawLine: string): (t: Token)
    ensures t.Field? ==> t.kind != OtherLine && ':' in rawLine
    ensures t.Field? ==> ':' !in t.value && Trim(t.value) == t.value
  {
    var line := Trim(rawLine);
    TrimAddsNothing(rawLine, ':');
    if line == "" then Skip
    else
      var k := Classify(line);
      if k == OtherLine then Skip else Field(k, FieldValue(line).value)
  }

  /** Each line is trimmed before it is looked at, so whitespace around a
      line (the indentation of the prompt's template, say) changes nothing. */
  lemma TokenizeIgnoresPadding(pre: string, line: string, post: string)
    requires forall i :: 0 <= i < |pre| ==> IsSpace(pre[i])
    requires forall i :: 0 <= i < |post| ==> IsSpace(post[i])
    ensures Tokenize(pre + line + post) == Tokenize(line)
  {
    TrimIgnoresPadding(pre, line, post);
  }

  /** `line` is `key: value` written as the model is asked to: a key that
      starts the line, one colon, optional whitespace, and a value without a
      colon or surrounding whitespace (the whitespace only before a value). */
  predicate KeyLine(line: string, key: string, pad: string, v: string)
  {
    && line == key + [':'] + pad + v
    && ':' !in key && ':' !in pad && ':' !in v
    && |key| > 0 && !IsSpace(key[0])
    && (forall i :: 0 <= i < |pad| ==> IsSpace(pad[i]))
    && (v == [] ==> pad == [])
    && (v == [] || (!IsSpace(v[0]) && !IsSpace(v[|v| - 1])))
  }

  /** A recognised line `key: value`, with the value padded by whitespace
      on the left, gives a field holding exactly the value. */
  lemma TokenizeKeyLine(line: string, key: string, pad: string, v: string, k: LineKind)
    requires KeyLine(line, key, pad, v)
    requires Classify(line) == k && k != OtherLine
    ensures Tokenize(line) == Field(k, v)
  {
    KeyLineTrimmed(line, key, pad, v);
    KeyLineValue(line, key, pad, v);
  }

  lemma KeyLineTrimmed(line: string, key: string, pad: string, v: string)
    requires line == key + [':'] + pad + v
    requires |key| > 0 && !IsSpace(key[0])
    requires v == [] ==> pad == []
    requires v == [] || !IsSpace(v[|v| - 1])
    ensures Trim(line) == line
  {
    assert line[0] == key[0];
    if v == [] {
      assert line == key + [':'];
    } else {
      assert line[|line| - 1] == v[|v| - 1];
    }
    TrimOfTrimmed(line);
  }

  lemma KeyLineValue(line: string, key: string, pad: string, v: string)
    requires line == key + [':'] + pad + v
    requires ':' !in key && ':' !in pad && ':' !in v
    requires forall i :: 0 <= i < |pad| ==> IsSpace(pad[i])
    requires v == [] || (!IsSpace(v[0]) && !IsSpace(v[|v| - 1]))
    ensures FieldValue(line) == Some(v)
  {
    assert line == key + [':'] + (pad + v);
    assert ':' !in pad + v by {
      assert forall x :: x in pad + v ==> x in pad || x in v;
    }
    FieldValueAfterOnlyColon(key, pad + v);
    TrimPadded(pad, v);
  }

  function Tokens(lines: seq<string>): (ts: seq<Token>)
    ensures |ts| == |lines|
    ensures forall i :: 0 <= i < |lines| ==> ts[i] == Tokenize(lines[i])
  {
    seq(|lines|, i requires 0 <= i < |lines| => Tokenize(lines[i]))
  }

  /** The scan's state: the records pushed so far and the one being filled. */
  datatype ScanState = ScanState(done: seq<Record>, current: Record)

  const Initial := ScanState([], EmptyRecord)

  /** One iteration of the `for (const line of lines)` loop. */
  function Step(st: ScanState, t: Token): (r: ScanState)
    ensures |st.done| <= |r.done| <= |st.done| + 1 && r.done[..|st.done|] == st.done
    ensures |r.done| > |st.done| ==>
      && t.Field?
      && ((t.kind == NameLine && HasName(st.current) && r.done[|st.done|] == st.current) ||
          (t.kind == PriceLine && KeyCount(r.done[|st.done|]) == 3))
  {
    match t
    case Skip => st
    case Field(NameLine, v) =>
      var st' := if HasName(st.current) then ScanState(st.done + [st.current], EmptyRecord) else st;
      st'.(current := st'.current.(item := Some(v)))
    case Field(DescriptionLine, v) =>
      st.(current := st.current.(description := Some(v)))
    case Field(PriceLine, v) =>
      var cur := st.current.(estimatedPrice := Some(v));
      if KeyCount(cur) >= 3 then ScanState(st.done + [cur], EmptyRecord)
      else st.(current := cur)
    case Field(OtherLine, _) => st
  }

  /** A name line pushes the current record exactly when its name is truthy
      and opens a record holding only the new name; after a falsy name it
      renames the current record instead. */
  lemma StepNameLine(st: ScanState, v: string)
    ensures HasName(st.current) ==>
      Step(st, Field(NameLine, v)) == ScanState(st.done + [st.current], Record(Some(v), None, None))
    ensures !HasName(st.current) ==>
      Step(st, Field(NameLine, v)) == st.(current := st.current.(item := Some(v)))
  {
  }

  /** A price line pushes the current record, priced, exactly when it
      already holds a name and a description (truthy or not), and starts an
      empty one; otherwise it only sets the price. */
  lemma StepPriceLine(st: ScanState, v: string)
    ensures var priced := st.current.(estimatedPrice := Some(v));
      if st.current.item.Some? && st.current.description.Some?
      then Step(st, Field(PriceLine, v)) == ScanState(st.done + [priced], EmptyRecord)
      else Step(st, Field(PriceLine, v)) == st.(current := priced)
  {
  }

  /** The loop over all lines, in order. Records once pushed are never
      altered or removed, and each line pushes at most one. */
  function Scan(st: ScanState, ts: seq<Token>): (r: ScanState)
    ensures |st.done| <= |r.done| <= |st.done| + |ts| && r.done[..|st.done|] == st.done
    decreases |ts|
  {
    if |ts| == 0 then st else Scan(Step(st, ts[0]), ts[1..])
  }

  /** After the loop: the record being filled is kept only if its name is truthy. */
  function Finish(st: ScanState): (r: seq<Record>)
    ensures |st.done| <= |r| <= |st.done| + 1 && r[..|st.done|] == st.done
    ensures |r| > |st.done| <==> HasName(st.current)
    ensures |r| > |st.done| ==> r[|st.done|] == st.current
  {
    if HasName(st.current) then st.done + [st.current] else st.done
  }

  /** The records the line-oriented fallback extracts from cleaned text. */
  function ParseLines(cleaned: string): (r: seq<Record>)
    ensures AllNamed(r)
  {
    var st := Scan(Initial, Tokens(Split(cleaned, '\n')));
    ScanKeepsNamed(Initial, Tokens(Split(cleaned, '\n')));
    FinishKeepsNamed(st);
    Finish(st)
  }

  // ---------------------------------------------------------------------------
  // The whole parser and the route's choice of reply

  /** The three outcomes of `parseAnalysisText`: the value `JSON.parse`
      returned, a non-empty list of records from the line scan, or `null`. */
  datatype ParseOutcome = Structured(json: Json) | Heuristic(records: seq<Record>) | NoData

  /** `return items.length > 0 ? items : null` after the line scan. */
  function LineOutcome(items: seq<Record>): ParseOutcome
  {
    if |items| > 0 then Heuristic(items) else NoData
  }

  /** `parseAnalysisText`. `JSON.parse` is the parameter `jsonParse`, whose
      `None` stands for the exception it throws on text that is not JSON. */
  function ParseAnalysisText(text: string, jsonParse: string -> Option<Json>): (r: ParseOutcome)
    ensures var j := jsonParse(CleanText(text));
      && (j.Some? <==> r.Structured?)
      && (j.Some? ==> r == Structured(j.value))
      && (j.None? && ParseLines(CleanText(text)) != [] ==> r == Heuristic(ParseLines(CleanText(text))))
      && (j.None? && ParseLines(CleanText(text)) == [] <==> r == NoData)
    ensures r.Heuristic? ==> |r.records| > 0
  {
    var cleaned := CleanText(text);
    match jsonParse(cleaned)
    case Some(j) => Structured(j)
    case None =>
      LineOutcome(ParseLines(cleaned))
  }

  /** The `items` of the route's successful reply: either the parsed JSON
      value itself or a list of records. */
  datatype Reply = JsonItems(json: Json) | RecordItems(records: seq<Record>)

  /** The single record sent when nothing usable was parsed. */
  function FallbackRecord(text: string): Record
  {
    Record(Some("Analysis Result"), Some(CleanText(text)), Some("N/A"))
  }

  /** `if (parsedItems) … else …` in `POST`: a truthy parse result is sent as
      it is, anything falsy is replaced by the fallback record. */
  function SelectReply(text: string, jsonParse: string -> Option<Json>): (r: Reply)
    ensures var j := jsonParse(CleanText(text));
      && (r.JsonItems? <==> j.Some? && Truthy(j.value))
      && (r.JsonItems? ==> r.json == j.value)
      && ((j.Some? && !Truthy(j.value)) || (j.None? && ParseLines(CleanText(text)) == []) ==>
            r == RecordItems([FallbackRecord(text)]))
      && (j.None? && ParseLines(CleanText(text)) != [] ==> r == RecordItems(ParseLines(CleanText(text))))
    ensures r.RecordItems? ==> |r.records| > 0
  {
    match ParseAnalysisText(text, jsonParse)
    case Structured(j) => if Truthy(j) then JsonItems(j) else RecordItems([FallbackRecord(text)])
    case Heuristic(records) => RecordItems(records)
    case NoData => RecordItems([FallbackRecord(text)])
  }

  /** Text made of lines in the requested format reaches the line scan
      unchanged, one token per line. */
  lemma PlainTextParse(lines: seq<string>, jsonParse: string -> Option<Json>)
    requires |lines| >= 1
    requires forall i :: 0 <= i < |lines| ==> PlainLine(lines[i])
    requires jsonParse(Join(lines, '\n')).None?
    ensures ParseAnalysisText(Join(lines, '\n'), jsonParse) == LineOutcome(Finish(Scan(Initial, Tokens(lines))))
  {
    CleanPlainText(lines);
    forall i | 0 <= i < |lines| ensures '\n' !in lines[i] {
      assert PlainLine(lines[i]);
    }
    SplitJoin(lines, '\n');
  }

  /** The route's answer. */
  datatype Response = Ok(items: Reply) | Failed(status: nat, message: string)

  /** `POST` after the API key check: the uploaded file (`None` when the form
      has none) is checked, the model is called, and its reply is parsed.
      The model's reply is the parameter `modelText`, `None` when the call
      threw. */
  function HandleAnalyze(file: Option<FileInfo>, modelText: Option<string>, jsonParse: string -> Option<Json>): (r: Response)
    ensures file.None? ==> r == Failed(400, "No image file provided")
    ensures file.Some? && CheckUpload(file.value) != Accepted ==> r.Failed? && r.status == 400
    ensures r.Ok? <==> file.Some? && CheckUpload(file.value) == Accepted && modelText.Some? && modelText.value != ""
    ensures r.Ok? ==> r.items == SelectReply(modelText.value, jsonParse)
    ensures file.Some? && CheckUpload(file.value) == Accepted && !r.Ok? ==>
      r == Failed(500, "Failed to analyze image with AI model. Please try again.")
  {
    match file
    case None => Failed(400, "No image file provided")
    case Some(f) =>
      match ServerError(f)
      case Some(e) => Failed(e.0, e.1)
      case None =>
        match modelText
        case None => Failed(500, "Failed to analyze image with AI model. Please try again.")
        case Some(text) =>
          if text == "" then Failed(500, "Failed to analyze image with AI model. Please try again.")
          else Ok(SelectReply(text, jsonParse))
  }

  // ---------------------------------------------------------------------------
  // Properties of the line scan

  /** The scan is a left fold: scanning two blocks of lines is scanning the
      first and then the second from where the first left off. */
  lemma {:induction false} ScanAppend(st: ScanState, a: seq<Token>, b: seq<Token>)
    ensures Scan(st, a + b) == Scan(Scan(st, a), b)
    decreases |a|
  {
    if |a| == 0 {
      assert a + b == b;
    } else {
      assert (a + b)[0] == a[0] && (a + b)[1..] == a[1..] + b;
      ScanAppend(Step(st, a[0]), a[1..], b);
    }
  }

  /** The record has all three keys. */
  predicate Complete(r: Record)
  {
    r.item.Some? && r.description.Some? && r.estimatedPrice.Some?
  }

  /** The name, description and price lines of a complete record, in the
      order the model is asked to write them. */
  function RecordTokens(r: Record): seq<Token>
    requires Complete(r)
  {
    [Field(NameLine, r.item.value), Field(DescriptionLine, r.description.value), Field(PriceLine, r.estimatedPrice.value)]
  }

  /** The lines of complete records written one after another. */
  function PromptedTokens(rs: seq<Record>): seq<Token>
    requires forall i :: 0 <= i < |rs| ==> Complete(rs[i])
  {
    if |rs| == 0 then [] else RecordTokens(rs[0]) + PromptedTokens(rs[1..])
  }

  /** The three lines of a complete record, read with no record open, push
      exactly that record and leave none open. */
  lemma ScanRecordTokens(done: seq<Record>, r: Record)
    requires Complete(r)
    ensures Scan(ScanState(done, EmptyRecord), RecordTokens(r)) == ScanState(done + [r], EmptyRecord)
  {
    var ts := RecordTokens(r);
    var s0 := ScanState(done, EmptyRecord);
    var s1 := Step(s0, ts[0]);
    var s2 := Step(s1, ts[1]);
    assert s1 == ScanState(done, Record(r.item, None, None));
    assert s2 == ScanState(done, Record(r.item, r.description, None));
    assert ts[1..] == [ts[1], ts[2]] && ts[1..][1..] == [ts[2]] && ts[1..][1..][1..] == [];
    assert Scan(s0, ts) == Scan(s1, [ts[1], ts[2]]);
    assert Scan(s1, [ts[1], ts[2]]) == Scan(s2, [ts[2]]);
  }

  lemma {:induction false} ScanPromptedTokens(done: seq<Record>, rs: seq<Record>)
    requires forall i :: 0 <= i < |rs| ==> Complete(rs[i])
    ensures Scan(ScanState(done, EmptyRecord), PromptedTokens(rs)) == ScanState(done + rs, EmptyRecord)
    decreases |rs|
  {
    if |rs| == 0 {
      assert done + rs == done;
    } else {
      var st := ScanState(done, EmptyRecord);
      ScanAppend(st, RecordTokens(rs[0]), PromptedTokens(rs[1..]));
      ScanRecordTokens(done, rs[0]);
      ScanPromptedTokens(done + [rs[0]], rs[1..]);
      assert done + [rs[0]] + rs[1..] == done + rs;
    }
  }

  /** Replies in the prompted format give back exactly the records written,
      in order: each price line completes its record, whatever its name and
      description are, and no record is left open at the end. */
  lemma PromptedFormatRoundTrip(rs: seq<Record>)
    requires forall i :: 0 <= i < |rs| ==> Complete(rs[i])
    ensures Finish(Scan(Initial, PromptedTokens(rs))) == rs
  {
    ScanPromptedTokens([], rs);
    assert [] + rs == rs;
  }

  function KeepFields(ts: seq<Token>): (r: seq<Token>)
    ensures forall i :: 0 <= i < |r| ==> r[i].Field?
    ensures IsSubsequence(r, ts)
    ensures forall t: Token :: t.Field? ==> multiset(r)[t] == multiset(ts)[t]
    decreases |ts|
  {
    assert |ts| > 0 ==> ts == [ts[0]] + ts[1..];
    if |ts| == 0 then []
    else if ts[0].Field? then
      var r := [ts[0]] + KeepFields(ts[1..]);
      assert r[1..] == KeepFields(ts[1..]);
      r
    else
      KeepFields(ts[1..])
  }

  /** Blank lines and lines without a recognised prefix are skipped: the scan
      gives the same result when they are removed. */
  lemma {:induction false} SkippedLinesIgnored(st: ScanState, ts: seq<Token>)
    ensures Scan(st, ts) == Scan(st, KeepFields(ts))
    decreases |ts|
  {
    if |ts| > 0 {
      if ts[0].Field? {
        var r := KeepFields(ts);
        assert r[0] == ts[0] && r[1..] == KeepFields(ts[1..]);
        SkippedLinesIgnored(Step(st, ts[0]), ts[1..]);
      } else {
        SkippedLinesIgnored(st, ts[1..]);
      }
    }
  }

  /** Text with no recognised line yields no records, so the parser answers
      `null` and the route sends the single fallback record. */
  lemma NothingRecognisedIsNoData(text: string, jsonParse: string -> Option<Json>)
    requires jsonParse(CleanText(text)).None?
    requires forall line :: line in Split(CleanText(text), '\n') ==> Tokenize(line) == Skip
    ensures ParseAnalysisText(text, jsonParse) == NoData
    ensures SelectReply(text, jsonParse) == RecordItems([FallbackRecord(text)])
  {
    var cleaned := CleanText(text);
    assert ParseLines(cleaned) == [] by {
      var lines := Split(cleaned, '\n');
      var ts := Tokens(lines);
      forall i | 0 <= i < |ts| ensures ts[i] == Skip {
        assert lines[i] in lines;
      }
      SkipsLeaveNothing(ts);
    }
  }

  /** Tokens that are all skipped produce no record. */
  lemma SkipsLeaveNothing(ts: seq<Token>)
    requires forall i :: 0 <= i < |ts| ==> ts[i] == Skip
    ensures Finish(Scan(Initial, ts)) == []
  {
    SkippedLinesIgnored(Initial, ts);
    AllSkipHasNoFields(ts);
  }

  lemma {:induction false} AllSkipHasNoFields(ts: seq<Token>)
    requires forall i :: 0 <= i < |ts| ==> ts[i] == Skip
    ensures KeepFields(ts) == []
    decreases |ts|
  {
    if |ts| > 0 {
      AllSkipHasNoFields(ts[1..]);
    }
  }

  /** The prefix test ignores the case of ASCII letters. */
  lemma ClassifyIgnoresCase(line: string)
    ensures Classify(Lower(line)) == Classify(line)
  {
    LowerIdempotent(line);
  }

  /** Every record in the list has a name key. */
  ghost predicate AllNamed(rs: seq<Record>)
  {
    forall i :: 0 <= i < |rs| ==> rs[i].item.Some?
  }

  lemma {:induction false} ScanKeepsNamed(st: ScanState, ts: seq<Token>)
    requires AllNamed(st.done)
    ensures AllNamed(Scan(st, ts).done)
    decreases |ts|
  {
    if |ts| > 0 {
      var st' := Step(st, ts[0]);
      assert AllNamed(st'.done);
      ScanKeepsNamed(st', ts[1..]);
    }
  }

  lemma FinishKeepsNamed(st: ScanState)
    requires AllNamed(st.done)
    ensures AllNamed(Finish(st))
  {
  }

  // ---------------------------------------------------------------------------
  // Source order

  /** The names of records, in order, skipping records without one. */
  function Names(rs: seq<Record>): seq<string>
    decreases |rs|
  {
    if |rs| == 0 then []
    else Names(rs[..|rs| - 1]) + NameOf(rs[|rs| - 1])
  }

  function NameOf(r: Record): seq<string>
  {
    if r.item.Some? then [r.item.value] else []
  }

  /** The values of the name lines, in order. */
  function NameValues(ts: seq<Token>): seq<string>
    decreases |ts|
  {
    if |ts| == 0 then []
    else NameValues(ts[..|ts| - 1]) + TokenName(ts[|ts| - 1])
  }

  function TokenName(t: Token): seq<string>
  {
    if t.Field? && t.kind == NameLine then [t.value] else []
  }

  /** The names held by a scan state: those pushed and the one being filled. */
  function Tracked(st: ScanState): seq<string>
  {
    Names(st.done) + NameOf(st.current)
  }

  lemma NamesAppend(rs: seq<Record>, r: Record)
    ensures Names(rs + [r]) == Names(rs) + NameOf(r)
  {
    assert (rs + [r])[..|rs|] == rs;
  }

  lemma StepKeepsOrder(st: ScanState, t: Token, seen: seq<string>)
    requires IsSubsequence(Tracked(st), seen)
    ensures IsSubsequence(Tracked(Step(st, t)), seen + TokenName(t))
  {
    match t
    case Skip =>
      assert seen + [] == seen;
    case Field(NameLine, v) =>
      if HasName(st.current) {
        NamesAppend(st.done, st.current);
        assert Tracked(Step(st, t)) == Tracked(st) + [v];
        SubsequenceAppend(Tracked(st), seen, v);
      } else {
        SubsequenceDropTail(Names(st.done), NameOf(st.current), seen);
        assert Tracked(Step(st, t)) == Names(st.done) + [v];
        SubsequenceAppend(Names(st.done), seen, v);
      }
    case Field(DescriptionLine, v) =>
      assert seen + [] == seen;
    case Field(PriceLine, v) =>
      var cur := st.current.(estimatedPrice := Some(v));
      if KeyCount(cur) >= 3 {
        NamesAppend(st.done, cur);
      }
      assert Tracked(Step(st, t)) == Tracked(st);
      assert seen + [] == seen;
    case Field(OtherLine, _) =>
      assert seen + [] == seen;
  }

  lemma {:induction false} ScanKeepsOrder(st: ScanState, ts: seq<Token>, seen: seq<string>)
    requires IsSubsequence(Tracked(st), seen)
    ensures IsSubsequence(Tracked(Scan(st, ts)), seen + NameValues(ts))
    decreases |ts|
  {
    if |ts| == 0 {
      assert seen + [] == seen;
    } else {
      StepKeepsOrder(st, ts[0], seen);
      ScanKeepsOrder(Step(st, ts[0]), ts[1..], seen + TokenName(ts[0]));
      ScanOrderUnfold(st, ts, seen);
    }
  }

  /** One unfolding of the scan, with the names of the first line moved
      into the ones already seen. */
  lemma ScanOrderUnfold(st: ScanState, ts: seq<Token>, seen: seq<string>)
    requires |ts| > 0
    requires IsSubsequence(Tracked(Scan(Step(st, ts[0]), ts[1..])), seen + TokenName(ts[0]) + NameValues(ts[1..]))
    ensures IsSubsequence(Tracked(Scan(st, ts)), seen + NameValues(ts))
  {
    NamesShift(ts, seen);
    ScanUnfold(st, ts);
    SubsequenceOfEqual(Tracked(Scan(Step(st, ts[0]), ts[1..])), seen + TokenName(ts[0]) + NameValues(ts[1..]),
                       Tracked(Scan(st, ts)), seen + NameValues(ts));
  }

  lemma ScanUnfold(st: ScanState, ts: seq<Token>)
    requires |ts| > 0
    ensures Tracked(Scan(Step(st, ts[0]), ts[1..])) == Tracked(Scan(st, ts))
  {
  }

  lemma NamesShift(ts: seq<Token>, seen: seq<string>)
    requires |ts| > 0
    ensures seen + TokenName(ts[0]) + NameValues(ts[1..]) == seen + NameValues(ts)
  {
    NameValuesCons(ts);
  }

  lemma {:induction false} NameValuesCons(ts: seq<Token>)
    requires |ts| > 0
    ensures NameValues(ts) == TokenName(ts[0]) + NameValues(ts[1..])
    decreases |ts|
  {
    if |ts| > 1 {
      var init := ts[..|ts| - 1];
      var last := TokenName(ts[|ts| - 1]);
      NameValuesCons(init);
      assert init[0] == ts[0];
      assert init[1..] == ts[1..][..|ts| - 2];
      assert ts[1..][|ts| - 2] == ts[|ts| - 1];
      assert NameValues(ts[1..]) == NameValues(init[1..]) + last;
      assert NameValues(ts) == TokenName(ts[0]) + NameValues(init[1..]) + last;
    } else {
      assert ts[..0] == [] && ts[1..] == [];
    }
  }

  /** Records come out in source order: their names are the values of the
      name lines, in the order those lines appear, with some skipped (an
      empty name overwritten by the next name line). */
  lemma ParsedNamesInSourceOrder(cleaned: string)
    ensures IsSubsequence(Names(ParseLines(cleaned)), NameValues(Tokens(Split(cleaned, '\n'))))
  {
    var ts := Tokens(Split(cleaned, '\n'));
    assert Tracked(Initial) == [];
    ScanKeepsOrder(Initial, ts, []);
    assert [] + NameValues(ts) == NameValues(ts);
    var st := Scan(Initial, ts);
    if HasName(st.current) {
      NamesAppend(st.done, st.current);
    } else {
      SubsequenceDropTail(Names(st.done), NameOf(st.current), NameValues(ts));
    }
  }
}

=== FILE: clean.dfy ===
/** `cleanText` of the analysis route: two global, multiline regular-expression
    deletions followed by `trim`.

    A multiline `^` matches at the start of the input and after every line
    terminator of the INPUT (not of the text produced so far), and JavaScript
    `\s` also matches line terminators, so a deletion may run across several
    lines. Each deletion is therefore modelled as one left-to-right scan that
    carries whether the current position is a line start. */
module Clean {
  import opened Text

  /** The class `[*â€¢-]` of the first pattern taken character by character:
      the bullet appears there as the three characters `â`, `€` and `¢`. */
  predicate IsMarker(c: char)
  {
    c == '*' || c == '\U{00E2}' || c == '\U{20AC}' || c == '\U{00A2}' || c == '-'
  }

  /** The two line-anchored patterns: `[*â€¢-]\s*` and `\s*[\d]+\.\s*`. */
  datatype Pattern = Marker | Numbered

  /** Length of the longest prefix of `s` whose characters satisfy `IsSpace`. */
  function SpaceRun(s: string): (n: nat)
    ensures n <= |s|
    ensures forall i :: 0 <= i < n ==> IsSpace(s[i])
    ensures n == |s| || !IsSpace(s[n])
  {
    if |s| > 0 && IsSpace(s[0]) then 1 + SpaceRun(s[1..]) else 0
  }

  /** Length of the match of `[*â€¢-]\s*` at the start of `s`, 0 when it
      does not match there. */
  function MarkerMatch(s: string): (n: nat)
    ensures n <= |s|
    ensures n > 0 <==> |s| > 0 && IsMarker(s[0])
    ensures n > 0 ==> n == 1 + SpaceRun(s[1..])
  {
    if |s| > 0 && IsMarker(s[0]) then 1 + SpaceRun(s[1..]) else 0
  }

  /** Length of the match of `\s*[\d]+\.\s*` at the start of `s`, 0 when it
      does not match there: whitespace, at least one digit, a full stop,
      whitespace. */
  function NumberMatch(s: string): (n: nat)
    ensures n <= |s|
    ensures n > 0 <==>
      var w := SpaceRun(s);
      var d := DigitRun(s[w..]);
      d > 0 && w + d < |s| && s[w + d] == '.'
  {
    var w := SpaceRun(s);
    var d := DigitRun(s[w..]);
    if d > 0 && w + d < |s| && s[w + d] == '.' then w + d + 1 + SpaceRun(s[w + d + 1..]) else 0
  }

  /** A numbered prefix is deleted whole: the match covers the leading
      whitespace, every digit, the full stop and all whitespace after it. */
  lemma NumberMatchLength(s: string)
    requires NumberMatch(s) > 0
    ensures var w := SpaceRun(s);
      var d := DigitRun(s[w..]);
      NumberMatch(s) == w + d + 1 + SpaceRun(s[w + d + 1..])
  {
  }

  /** Length of the match of pattern `p` at the start of `s`, 0 when it does
      not match there (neither pattern matches the empty string). Both
      patterns match deterministically: `\s`, `\d`, markers and `.` are
      disjoint classes, so greedy repetition never has to back off. */
  function MatchLength(p: Pattern, s: string): (n: nat)
    ensures n <= |s|
  {
    match p
    case Marker => MarkerMatch(s)
    case Numbered => NumberMatch(s)
  }

  /** `s.replace(p, "")` for the global multiline pattern `p`: every match that
      begins at a line start is deleted, scanning on from where it ended.
      `atStart` says whether the first character of `s` is at a line start. */
  function Strip(p: Pattern, s: string, atStart: bool): (r: string)
    ensures |r| <= |s|
    decreases |s|
  {
    if |s| == 0 then []
    else
      var n := if atStart then MatchLength(p, s) else 0;
      if n > 0 then Strip(p, s[n..], IsLineTerminator(s[n - 1]))
      else [s[0]] + Strip(p, s[1..], IsLineTerminator(s[0]))
  }

  /** A deletion pass only deletes: what it keeps is a subsequence of its input. */
  lemma {:induction false} StripDeletesOnly(p: Pattern, s: string, atStart: bool)
    ensures IsSubsequence(Strip(p, s, atStart), s)
    decreases |s|
  {
    if |s| > 0 {
      var n := if atStart then MatchLength(p, s) else 0;
      if n > 0 {
        StripDeletesOnly(p, s[n..], IsLineTerminator(s[n - 1]));
        SubsequenceOfSuffix(Strip(p, s[n..], IsLineTerminator(s[n - 1])), s, n);
      } else {
        var r := Strip(p, s[1..], IsLineTerminator(s[0]));
        StripDeletesOnly(p, s[1..], IsLineTerminator(s[0]));
        assert ([s[0]] + r)[1..] == r;
      }
    }
  }

  /** `cleanText` (app/api/analyze/route.ts). */
  function CleanText(text: string): (r: string)
    ensures |r| <= |text|
    ensures r == [] || (!IsSpace(r[0]) && !IsSpace(r[|r| - 1]))
  {
    Trim(Strip(Numbered, Strip(Marker, text, true), true))
  }

  /** Whether `i` is a line start of `s`, the first position being one
      exactly when `atStart` holds. */
  predicate AtLineStart(s: string, atStart: bool, i: int)
    requires 0 <= i <= |s|
  {
    if i == 0 then atStart else IsLineTerminator(s[i - 1])
  }

  /** Some line start of `s` begins a match of `p`. */
  ghost predicate MatchesSomewhere(p: Pattern, s: string, atStart: bool)
  {
    exists i :: 0 <= i < |s| && AtLineStart(s, atStart, i) && MatchLength(p, s[i..]) > 0
  }

  // ---------------------------------------------------------------------------
  // Deleting characters

  lemma TrimIsSubsequence(s: string)
    ensures IsSubsequence(Trim(s), s)
  {
    var t := TrimStart(s);
    PrefixIsSubsequence(t, |TrimEnd(t)|);
    PrefixIsSubsequence(t, |t|);
    assert t[..|t|] == t == s[|s| - |t|..];
    SubsequenceOfSuffix(t, s, |s| - |t|);
    SubsequenceTransitive(Trim(s), t, s);
  }

  /** `cleanText` only deletes characters; its result has no whitespace at
      either end, and it is the trim of the text left by the two deletions. */
  lemma CleanTextDeletesAndTrims(text: string)
    ensures IsSubsequence(CleanText(text), text)
    ensures |CleanText(text)| <= |text|
    ensures var r := CleanText(text); r == [] || (!IsSpace(r[0]) && !IsSpace(r[|r| - 1]))
    ensures IsTrimOf(Strip(Numbered, Strip(Marker, text, true), true), CleanText(text))
  {
    var a := Strip(Marker, text, true);
    var b := Strip(Numbered, a, true);
    var c := CleanText(text);
    assert c == Trim(b);
    assert IsSubsequence(c, text) by {
      TrimIsSubsequence(b);
      StripDeletesOnly(Marker, text, true);
      StripDeletesOnly(Numbered, a, true);
      SubsequenceTransitive(c, b, a);
      SubsequenceTransitive(c, a, text);
    }
    assert IsTrimOf(b, c) by { TrimIsTrimOf(b); }
  }

  // ---------------------------------------------------------------------------
  // When a deletion changes nothing

  lemma {:induction false} StripKeepsUnmatched(p: Pattern, s: string, atStart: bool)
    requires !MatchesSomewhere(p, s, atStart)
    ensures Strip(p, s, atStart) == s
    decreases |s|
  {
    if |s| > 0 {
      UnmatchedRest(p, s, atStart);
      StripNoMatchStep(p, s, atStart);
      StripKeepsUnmatched(p, s[1..], IsLineTerminator(s[0]));
      assert [s[0]] + s[1..] == s;
    }
  }

  /** Without a match anywhere, none begins at the first character nor in
      the rest. */
  lemma UnmatchedRest(p: Pattern, s: string, atStart: bool)
    requires |s| > 0 && !MatchesSomewhere(p, s, atStart)
    ensures atStart ==> MatchLength(p, s) == 0
    ensures !MatchesSomewhere(p, s[1..], IsLineTerminator(s[0]))
  {
    assert AtLineStart(s, atStart, 0) ==> MatchLength(p, s[0..]) == 0;
    assert s[0..] == s;
    var t := s[1..];
    var b := IsLineTerminator(s[0]);
    forall i | 0 <= i < |t| && AtLineStart(t, b, i)
      ensures MatchLength(p, t[i..]) == 0
    {
      assert AtLineStart(s, atStart, i + 1) && s[i + 1..] == t[i..];
    }
  }

  lemma {:induction false} StripShrinksMatched(p: Pattern, s: string, atStart: bool)
    requires MatchesSomewhere(p, s, atStart)
    ensures |Strip(p, s, atStart)| < |s|
    decreases |s|
  {
    if atStart && MatchLength(p, s) > 0 {
      StripAtMatch(p, s);
    } else {
      MatchedRest(p, s, atStart);
      StripShrinksMatched(p, s[1..], IsLineTerminator(s[0]));
      StripNoMatchStep(p, s, atStart);
    }
  }

  /** When no match begins at the first character, one begins in the rest. */
  lemma MatchedRest(p: Pattern, s: string, atStart: bool)
    requires MatchesSomewhere(p, s, atStart)
    requires atStart ==> MatchLength(p, s) == 0
    ensures |s| > 0 && MatchesSomewhere(p, s[1..], IsLineTerminator(s[0]))
  {
    var i :| 0 <= i < |s| && AtLineStart(s, atStart, i) && MatchLength(p, s[i..]) > 0;
    assert s[0..] == s;
    var t := s[1..];
    assert AtLineStart(t, IsLineTerminator(s[0]), i - 1) && t[i - 1..] == s[i..];
  }

  /** A deletion pass leaves the text unchanged exactly when no line start
      begins a match of its pattern; otherwise it makes the text shorter. */
  lemma StripUnchangedIff(p: Pattern, s: string, atStart: bool)
    ensures Strip(p, s, atStart) == s <==> !MatchesSomewhere(p, s, atStart)
    ensures MatchesSomewhere(p, s, atStart) ==> |Strip(p, s, atStart)| < |s|
  {
    if MatchesSomewhere(p, s, atStart) {
      StripShrinksMatched(p, s, atStart);
    } else {
      StripKeepsUnmatched(p, s, atStart);
    }
  }

  /** Text with no deletable prefix at any line start and no surrounding
      whitespace is left as it is. */
  lemma CleanTextFixedPoint(text: string)
    requires !MatchesSomewhere(Marker, text, true)
    requires !MatchesSomewhere(Numbered, text, true)
    requires text == [] || (!IsSpace(text[0]) && !IsSpace(text[|text| - 1]))
    ensures CleanText(text) == text
  {
    StripUnchangedIff(Marker, text, true);
    StripUnchangedIff(Numbered, text, true);
    TrimOfTrimmed(text);
  }

  /** `s` contains no line terminator. */
  predicate SingleLine(s: string)
  {
    '\n' !in s && '\r' !in s && '\U{2028}' !in s && '\U{2029}' !in s
  }

  /** Within one line only its start can begin a deletion. */
  lemma {:induction false} StripOneLine(p: Pattern, s: string, atStart: bool)
    requires SingleLine(s)
    requires atStart ==> MatchLength(p, s) == 0
    ensures Strip(p, s, atStart) == s
    decreases |s|
  {
    if |s| > 0 {
      assert s[0] in s && !IsLineTerminator(s[0]);
      StripOneLine(p, s[1..], false);
      assert [s[0]] + s[1..] == s;
    }
  }

  /** A match at a line start is deleted whole, and the scan resumes after it. */
  lemma StripAtMatch(p: Pattern, s: string)
    requires MatchLength(p, s) > 0
    ensures var n := MatchLength(p, s);
      Strip(p, s, true) == Strip(p, s[n..], IsLineTerminator(s[n - 1]))
  {
  }

  /** A line ended by a line terminator, at whose start no match begins,
      passes through a deletion pass unchanged. */
  lemma {:induction false} StripKeepsLine(p: Pattern, line: string, c: char, rest: string, atStart: bool)
    requires SingleLine(line) && IsLineTerminator(c)
    requires atStart ==> MatchLength(p, line + [c] + rest) == 0
    ensures Strip(p, line + [c] + rest, atStart) == line + [c] + Strip(p, rest, true)
    decreases |line|
  {
    var s := line + [c] + rest;
    StripNoMatchStep(p, s, atStart);
    if |line| == 0 {
      assert s[0] == c && s[1..] == rest;
    } else {
      assert !IsLineTerminator(line[0]) by { assert line[0] in line; }
      assert s[0] == line[0] && s[1..] == line[1..] + [c] + rest;
      assert SingleLine(line[1..]) by {
        assert forall x :: x in line[1..] ==> x in line;
      }
      StripKeepsLine(p, line[1..], c, rest, false);
      assert [line[0]] + line[1..] == line;
    }
  }

  /** A match that begins at a line start and ends inside that line is
      deleted; the rest of the line and its terminator are kept, and the
      next line is scanned from its start. So a pass removes at most one
      prefix per line. */
  lemma StripMatchedLine(p: Pattern, line: string, c: char, rest: string)
    requires SingleLine(line) && IsLineTerminator(c)
    requires 0 < MatchLength(p, line + [c] + rest) <= |line|
    ensures var n := MatchLength(p, line + [c] + rest);
      Strip(p, line + [c] + rest, true) == line[n..] + [c] + Strip(p, rest, true)
  {
    var s := line + [c] + rest;
    var n := MatchLength(p, s);
    StripAtMatch(p, s);
    assert s[n - 1] == line[n - 1];
    assert !IsLineTerminator(line[n - 1]) by { assert line[n - 1] in line; }
    assert s[n..] == line[n..] + [c] + rest;
    assert SingleLine(line[n..]) by {
      assert forall x :: x in line[n..] ==> x in line;
    }
    StripKeepsLine(p, line[n..], c, rest, false);
  }

  /** A match that begins at a line start and runs past the line's
      terminator deletes the whole line, its terminator and the start of
      the text after it. On a line with something other than whitespace the
      match crosses only through its trailing `\s*`, so what it takes from
      the next line is whitespace. The scan resumes at a line start only when
      the match ends on a line terminator: an indented next line is read
      from the middle, and its own prefix survives the pass. */
  lemma StripCrossingMatch(p: Pattern, line: string, c: char, rest: string)
    requires SingleLine(line) && IsLineTerminator(c)
    requires MatchLength(p, line + [c] + rest) > |line|
    ensures var s := line + [c] + rest;
      var n := MatchLength(p, s);
      var k := n - |line| - 1;
      && 0 <= k <= |rest|
      && Strip(p, s, true) == Strip(p, rest[k..], IsLineTerminator(s[n - 1]))
      && ((p == Marker || SpaceRun(line) < |line|) ==> forall i :: 0 <= i < k ==> IsSpace(rest[i]))
  {
    CrossingResumes(p, line, c, rest);
    if p == Marker || SpaceRun(line) < |line| {
      CrossingTakesSpace(p, line, c, rest);
    }
  }

  lemma CrossingResumes(p: Pattern, line: string, c: char, rest: string)
    requires MatchLength(p, line + [c] + rest) > |line|
    ensures var s := line + [c] + rest;
      var n := MatchLength(p, s);
      Strip(p, s, true) == Strip(p, rest[n - |line| - 1..], IsLineTerminator(s[n - 1]))
  {
    var s := line + [c] + rest;
    var n := MatchLength(p, s);
    StripAtMatch(p, s);
    assert s[n..] == rest[n - |line| - 1..];
  }

  /** On a line that is not all whitespace, what a match takes from the next
      line is whitespace. */
  lemma CrossingTakesSpace(p: Pattern, line: string, c: char, rest: string)
    requires SingleLine(line) && IsLineTerminator(c)
    requires p == Marker || SpaceRun(line) < |line|
    requires MatchLength(p, line + [c] + rest) > |line|
    ensures forall i :: 0 <= i < MatchLength(p, line + [c] + rest) - |line| - 1 ==> IsSpace(rest[i])
  {
    var s := line + [c] + rest;
    var n := MatchLength(p, s);
    var m := TrailingRunStart(p, line, c, rest);
    SpaceRunCovers(s, m, n);
    assert s[|line| + 1..] == rest;
    SpaceRunSuffix(s, |line| + 1, rest, m, n);
  }

  /** A whitespace run that starts before `rest` makes the part of `rest`
      it reaches whitespace. */
  lemma SpaceRunSuffix(s: string, pre: nat, rest: string, lo: nat, n: nat)
    requires pre <= |s| && s[pre..] == rest && lo <= pre && n <= |s|
    requires forall j :: lo <= j < n ==> IsSpace(s[j])
    ensures forall i :: 0 <= i < n - pre ==> IsSpace(rest[i])
  {
    forall i | 0 <= i < n - pre
      ensures IsSpace(rest[i])
    {
      assert rest[i] == s[pre + i];
    }
  }

  /** The whitespace run that starts at `m` covers every position before its end. */
  lemma SpaceRunCovers(t: string, m: nat, n: nat)
    requires m <= |t| && n == m + SpaceRun(t[m..])
    ensures forall j :: m <= j < n ==> IsSpace(t[j])
  {
    forall j | m <= j < n
      ensures IsSpace(t[j])
    {
      assert t[j] == t[m..][j - m];
    }
  }

  /** Where the trailing `\s*` of the match begins: at or before the line's
      terminator. */
  lemma TrailingRunStart(p: Pattern, line: string, c: char, rest: string) returns (m: nat)
    requires SingleLine(line) && IsLineTerminator(c)
    requires p == Marker || SpaceRun(line) < |line|
    requires MatchLength(p, line + [c] + rest) > |line|
    ensures var s := line + [c] + rest;
      m <= |line| && MatchLength(p, s) == m + SpaceRun(s[m..])
  {
    if p == Marker {
      assert (line + [c] + rest)[0] == (if |line| == 0 then c else line[0]);
      m := 1;
    } else {
      m := NumberTrailingRunStart(line, c, rest);
    }
  }

  lemma NumberTrailingRunStart(line: string, c: char, rest: string) returns (m: nat)
    requires SingleLine(line) && IsLineTerminator(c)
    requires SpaceRun(line) < |line|
    requires NumberMatch(line + [c] + rest) > 0
    ensures var s := line + [c] + rest;
      m <= |line| && NumberMatch(s) == m + SpaceRun(s[m..])
  {
    var s := line + [c] + rest;
    var j := SpaceRun(line);
    assert s[j] == line[j];
    var w := SpaceRun(s);
    assert w <= j;
    var d := DigitRun(s[w..]);
    assert s[w..][|line| - w] == c;
    DigitRunStops(s[w..], |line| - w);
    assert s[w + d] == line[w + d] && line[w + d] in line;
    m := w + d + 1;
  }

  /** Where no match begins, the first character is kept. */
  lemma StripNoMatchStep(p: Pattern, s: string, atStart: bool)
    requires |s| > 0
    requires atStart ==> MatchLength(p, s) == 0
    ensures Strip(p, s, atStart) == [s[0]] + Strip(p, s[1..], IsLineTerminator(s[0]))
  {
  }

  /** Neither pattern can match text that starts with a character that is
      not whitespace, a digit or a marker. */
  lemma FirstCharBlocks(p: Pattern, s: string)
    requires |s| > 0 && !IsSpace(s[0]) && !IsDigit(s[0]) && !IsMarker(s[0])
    ensures MatchLength(p, s) == 0
  {
    assert SpaceRun(s) == 0;
    assert s[0..] == s;
  }

  /** A line in the format the model is asked for: non-empty, not starting
      with whitespace, a digit or a list marker, and not ending in whitespace. */
  predicate PlainLine(l: string)
  {
    && SingleLine(l) && |l| > 0
    && !IsSpace(l[0]) && !IsDigit(l[0]) && !IsMarker(l[0])
    && !IsSpace(l[|l| - 1])
  }

  lemma {:induction false} StripPlainLines(p: Pattern, lines: seq<string>)
    requires |lines| >= 1
    requires forall i :: 0 <= i < |lines| ==> PlainLine(lines[i])
    ensures Strip(p, Join(lines, '\n'), true) == Join(lines, '\n')
    decreases |lines|
  {
    var l := lines[0];
    assert PlainLine(l);
    FirstCharBlocks(p, l);
    if |lines| == 1 {
      StripOneLine(p, l, true);
    } else {
      var rest := Join(lines[1..], '\n');
      assert Join(lines, '\n') == l + ['\n'] + rest;
      FirstCharBlocks(p, l + ['\n'] + rest);
      StripKeepsLine(p, l, '\n', rest, true);
      StripPlainLines(p, lines[1..]);
    }
  }

  lemma {:induction false} JoinEnds(lines: seq<string>, sep: char)
    requires |lines| >= 1 && forall i :: 0 <= i < |lines| ==> |lines[i]| > 0
    ensures var s := Join(lines, sep);
      |s| > 0 && s[0] == lines[0][0] && s[|s| - 1] == lines[|lines| - 1][|lines[|lines| - 1]| - 1]
    decreases |lines|
  {
    if |lines| > 1 {
      JoinEnds(lines[1..], sep);
    }
  }

  /** Text made of lines in the requested format is left exactly as it is. */
  lemma CleanPlainText(lines: seq<string>)
    requires |lines| >= 1
    requires forall i :: 0 <= i < |lines| ==> PlainLine(lines[i])
    ensures CleanText(Join(lines, '\n')) == Join(lines, '\n')
  {
    StripPlainLines(Marker, lines);
    StripPlainLines(Numbered, lines);
    assert PlainLine(lines[0]) && PlainLine(lines[|lines| - 1]);
    JoinEnds(lines, '\n');
    TrimOfTrimmed(Join(lines, '\n'));
  }

  // ---------------------------------------------------------------------------
  // One prefix per line start per pass

  /** A second bullet on the same line survives a pass. */
  lemma MarkerStrippedOnce(text: string)
    requires text == "- - Sofa"
    ensures CleanText(text) == "- Sofa"
  {
    var rest := "- Sofa";
    assert text == ['-', ' '] + rest;
    assert SingleLine(rest) && !IsSpace(rest[0]) && !IsSpace(rest[|rest| - 1]);
    OneMarkerStripped('-', ' ', rest);
  }

  /** Cleaning twice removes more than cleaning once: a doubled marker loses
      one marker per pass. */
  lemma CleanTextNotIdempotent(m: char, sp: char, rest: string)
    requires IsMarker(m) && IsSpace(sp) && !IsLineTerminator(sp)
    requires SingleLine(rest) && |rest| > 0 && !IsSpace(rest[0]) && !IsDigit(rest[0]) && !IsSpace(rest[|rest| - 1])
    ensures var once := [m, sp] + rest;
      && CleanText([m, sp] + once) == once
      && CleanText(once) == rest
      && CleanText(CleanText([m, sp] + once)) != CleanText([m, sp] + once)
  {
    var once := [m, sp] + rest;
    assert SingleLine(once) && !IsSpace(once[0]) && !IsDigit(once[0]) && !IsSpace(once[|once| - 1]) by {
      assert once[|once| - 1] == rest[|rest| - 1];
      assert forall i :: 2 <= i < |once| ==> once[i] == rest[i - 2];
    }
    OneMarkerStripped(m, sp, once);
    OneMarkerStripped(m, sp, rest);
    assert |once| != |rest|;
  }

  /** A marker and a space before a line remove just those two characters,
      whatever the line starts with. */
  lemma OneMarkerStripped(m: char, sp: char, rest: string)
    requires IsMarker(m) && IsSpace(sp) && !IsLineTerminator(sp)
    requires SingleLine(rest) && |rest| > 0 && !IsSpace(rest[0]) && !IsDigit(rest[0]) && !IsSpace(rest[|rest| - 1])
    ensures CleanText([m, sp] + rest) == rest
  {
    var text := [m, sp] + rest;
    assert Strip(Marker, text, true) == rest by {
      MarkerMatchOneSpace(m, sp, rest);
      StripAtMatch(Marker, text);
      assert text[2..] == rest;
      StripOneLine(Marker, rest, false);
    }
    assert Strip(Numbered, rest, true) == rest by {
      NumberNeedsDigit(rest);
      StripOneLine(Numbered, rest, true);
    }
    TrimOfTrimmed(rest);
  }

  /** The numbered pattern needs a digit after the leading whitespace. */
  lemma NumberNeedsDigit(s: string)
    requires |s| > 0 && !IsSpace(s[0]) && !IsDigit(s[0])
    ensures MatchLength(Numbered, s) == 0
  {
    assert SpaceRun(s) == 0 && s[0..] == s;
  }

  /** A marker and one space before a non-space are one match. */
  lemma MarkerMatchOneSpace(m: char, sp: char, rest: string)
    requires IsMarker(m) && IsSpace(sp)
    requires |rest| > 0 && !IsSpace(rest[0])
    ensures MatchLength(Marker, [m, sp] + rest) == 2
  {
    var s := [m, sp] + rest;
    assert s[1..] == [sp] + rest && s[1..][1..] == rest;
    assert SpaceRun(rest) == 0;
  }

  /** A second list number on the same line survives a pass. */
  lemma NumberStrippedOnce(text: string)
    requires text == "1. 2. Sofa"
    ensures CleanText(text) == "2. Sofa"
  {
    var rest := "2. Sofa";
    assert text == ['1', '.', ' '] + rest;
    assert SingleLine(rest) && !IsSpace(rest[0]) && !IsSpace(rest[|rest| - 1]);
    OneNumberStripped('1', ' ', rest);
  }

  /** The trailing `\s*` of a list number takes the line break and the
      indentation of the next line with it. That line's own number then no
      longer stands at a line start, and it survives the pass. */
  lemma IndentedNumberSurvives(text: string)
    requires text == "1. \n  2. x"
    ensures CleanText(text) == "2. x"
  {
    IndentedMarkerPass(text);
    IndentedNumberedPass(text);
    TrimOfTrimmed("2. x");
  }

  lemma IndentedMarkerPass(text: string)
    requires text == "1. \n  2. x"
    ensures Strip(Marker, text, true) == text
  {
    assert text == "1. " + ['\n'] + "  2. x";
    MarkerKeepsTwoLines("1. ", "  2. x");
  }

  lemma IndentedNumberedPass(text: string)
    requires text == "1. \n  2. x"
    ensures Strip(Numbered, text, true) == "2. x"
  {
    IndentedPieces(text);
    IndentedNumberMatch(text);
    MidLineKept("2. x");
    StripAfterMatch(Numbered, text, 6, "2. x", false);
  }

  /** A pass over text whose first match has length `n`, restated for the
      text left after the match. */
  lemma StripAfterMatch(p: Pattern, text: string, n: nat, tail: string, b: bool)
    requires MatchLength(p, text) == n > 0
    requires text[n..] == tail && IsLineTerminator(text[n - 1]) == b
    ensures Strip(p, text, true) == Strip(p, tail, b)
  {
    StripAtMatch(p, text);
  }

  lemma MidLineKept(tail: string)
    requires tail == "2. x"
    ensures Strip(Numbered, tail, false) == tail
  {
    StripOneLine(Numbered, tail, false);
  }

  lemma IndentedPieces(text: string)
    requires text == "1. \n  2. x"
    ensures text[6..] == "2. x" && text[5] == ' '
  {
  }

  lemma IndentedNumberMatch(text: string)
    requires text == "1. \n  2. x"
    ensures MatchLength(Numbered, text) == 6
  {
    assert SpaceRun(text) == 0 && text[0..] == text;
    assert DigitRun(text) == 1 by { assert DigitRun(text[1..]) == 0; }
    var t := text[2..];
    assert t == " \n  2. x";
    assert SpaceRun(t[4..]) == 0;
    assert SpaceRun(t) == 4 by {
      assert t[1..][1..][1..][1..] == t[4..];
    }
  }

  /** Without indentation the line break ends the number's match, so the
      next line starts a line again and loses its own number too. */
  lemma UnindentedNumberStripped(text: string)
    requires text == "1.\n2. x"
    ensures CleanText(text) == "x"
  {
    UnindentedMarkerPass(text);
    UnindentedNumberedPass(text);
    TrimOfTrimmed("x");
  }

  lemma UnindentedMarkerPass(text: string)
    requires text == "1.\n2. x"
    ensures Strip(Marker, text, true) == text
  {
    assert text == "1." + ['\n'] + "2. x";
    MarkerKeepsTwoLines("1.", "2. x");
  }

  lemma UnindentedNumberedPass(text: string)
    requires text == "1.\n2. x"
    ensures Strip(Numbered, text, true) == "x"
  {
    UnindentedPieces(text);
    UnindentedNumberMatch(text);
    NextLineNumberStripped("2. x");
    StripAfterMatch(Numbered, text, 3, "2. x", true);
  }

  lemma NextLineNumberStripped(rest: string)
    requires rest == "2. x"
    ensures Strip(Numbered, rest, true) == "x"
  {
    NumberMatchOneDigit('2', ' ', "x");
    assert rest == ['2', '.', ' '] + "x";
    StripAtMatch(Numbered, rest);
    assert rest[3..] == "x";
    StripOneLine(Numbered, "x", false);
  }

  lemma UnindentedPieces(text: string)
    requires text == "1.\n2. x"
    ensures text[3..] == "2. x" && text[2] == '\n'
  {
  }

  lemma UnindentedNumberMatch(text: string)
    requires text == "1.\n2. x"
    ensures MatchLength(Numbered, text) == 3
  {
    assert SpaceRun(text) == 0 && text[0..] == text;
    assert DigitRun(text) == 1 by { assert DigitRun(text[1..]) == 0; }
    var t := text[2..];
    assert t == "\n2. x";
    assert SpaceRun(t) == 1 by { assert SpaceRun(t[1..]) == 0; }
  }

  /** Two lines that start with a digit and a space: the marker pass keeps both. */
  lemma MarkerKeepsTwoLines(line: string, rest: string)
    requires |line| > 0 && SingleLine(line) && IsDigit(line[0])
    requires |rest| > 0 && SingleLine(rest) && (IsDigit(rest[0]) || rest[0] == ' ')
    ensures Strip(Marker, line + ['\n'] + rest, true) == line + ['\n'] + rest
  {
    assert (line + ['\n'] + rest)[0] == line[0];
    StripKeepsLine(Marker, line, '\n', rest, true);
    StripOneLine(Marker, rest, true);
  }

  /** A one-digit list number, its dot and a space before a line remove just
      those three characters, whatever the line starts with. */
  lemma OneNumberStripped(d: char, sp: char, rest: string)
    requires IsDigit(d) && IsSpace(sp) && !IsLineTerminator(sp)
    requires SingleLine(rest) && |rest| > 0 && !IsSpace(rest[0]) && !IsSpace(rest[|rest| - 1])
    ensures CleanText([d, '.', sp] + rest) == rest
  {
    var text := [d, '.', sp] + rest;
    assert SingleLine(text) by {
      assert forall i :: 3 <= i < |text| ==> text[i] == rest[i - 3];
      assert forall x :: x in text ==> x in rest || x == d || x == '.' || x == sp;
    }
    assert Strip(Marker, text, true) == text by {
      assert !IsMarker(text[0]);
      StripOneLine(Marker, text, true);
    }
    assert Strip(Numbered, text, true) == rest by {
      NumberMatchOneDigit(d, sp, rest);
      StripAtMatch(Numbered, text);
      assert text[3..] == rest;
      StripOneLine(Numbered, rest, false);
    }
    TrimOfTrimmed(rest);
  }

  /** One digit, a dot and one space before a non-space are one match. */
  lemma NumberMatchOneDigit(d: char, sp: char, rest: string)
    requires IsDigit(d) && IsSpace(sp)
    requires |rest| > 0 && !IsSpace(rest[0])
    ensures MatchLength(Numbered, [d, '.', sp] + rest) == 3
  {
    var s := [d, '.', sp] + rest;
    assert SpaceRun(s) == 0 && s[0..] == s;
    assert DigitRun(s[1..]) == 0;
    assert DigitRun(s) == 1;
    assert s[2..] == [sp] + rest && s[2..][1..] == rest;
    assert SpaceRun(rest) == 0;
  }
}

=== FILE: examples.dfy ===
/** Worked inputs for the parser: the reply format the model is prompted
    for, and the edge cases of the line scan. */
module Examples {
  import opened Wrappers
  import opened Text
  import opened Clean
  import opened Analysis

  // ---------------------------------------------------------------------------
  // A complete item

  /** Lines in the requested format parse as the scan of their tokens. */
  lemma ParsePlainLines(text: string, lines: seq<string>, ts: seq<Token>, jsonParse: string -> Option<Json>)
    requires |lines| >= 1 && Join(lines, '\n') == text && Tokens(lines) == ts
    requires forall i :: 0 <= i < |lines| ==> PlainLine(lines[i])
    requires jsonParse(text).None?
    ensures ParseAnalysisText(text, jsonParse) == LineOutcome(Finish(Scan(Initial, ts)))
  {
    PlainTextParse(lines, jsonParse);
  }

  lemma PlainThree(lines: seq<string>, a: string, b: string, c: string)
    requires lines == [a, b, c]
    requires PlainLine(a) && PlainLine(b) && PlainLine(c)
    ensures forall i :: 0 <= i < |lines| ==> PlainLine(lines[i])
  {
    forall i | 0 <= i < |lines| ensures PlainLine(lines[i]) {
      if i == 0 {
        assert lines[i] == a;
      } else if i == 1 {
        assert lines[i] == b;
      } else {
        assert lines[i] == c;
      }
    }
  }

  /** One line in the requested format parses as the scan of its token. */
  lemma ParseOneLine(text: string, ts: seq<Token>, jsonParse: string -> Option<Json>)
    requires PlainLine(text)
    requires ts == [Tokenize(text)]
    requires jsonParse(text).None?
    ensures ParseAnalysisText(text, jsonParse) == LineOutcome(Finish(Scan(Initial, ts)))
  {
    var lines := [text];
    assert Join(lines, '\n') == text;
    assert Tokens(lines) == ts;
    ParsePlainLines(text, lines, ts, jsonParse);
  }

  /** Three lines in the requested format parse as the scan of their tokens. */
  lemma ParseThreeLines(text: string, a: string, b: string, c: string, ts: seq<Token>,
                        jsonParse: string -> Option<Json>)
    requires text == a + "\n" + b + "\n" + c
    requires PlainLine(a) && PlainLine(b) && PlainLine(c)
    requires ts == [Tokenize(a), Tokenize(b), Tokenize(c)]
    requires jsonParse(text).None?
    ensures ParseAnalysisText(text, jsonParse) == LineOutcome(Finish(Scan(Initial, ts)))
  {
    var lines := [a, b, c];
    assert Join(lines, '\n') == text by { JoinThree(a, b, c); }
    assert Tokens(lines) == ts by { TokensThree(a, b, c); }
    PlainThree(lines, a, b, c);
    ParsePlainLines(text, lines, ts, jsonParse);
  }

  /** Two lines in the requested format parse as the scan of their tokens. */
  lemma ParseTwoLines(text: string, a: string, b: string, ts: seq<Token>, jsonParse: string -> Option<Json>)
    requires text == a + "\n" + b
    requires PlainLine(a) && PlainLine(b)
    requires ts == [Tokenize(a), Tokenize(b)]
    requires jsonParse(text).None?
    ensures ParseAnalysisText(text, jsonParse) == LineOutcome(Finish(Scan(Initial, ts)))
  {
    var lines := [a, b];
    assert Join(lines, '\n') == text by { JoinTwo(a, b); }
    assert Tokens(lines) == ts by { TokensTwo(a, b); }
    assert forall i :: 0 <= i < |lines| ==> PlainLine(lines[i]) by {
      assert lines[0] == a && lines[1] == b;
    }
    ParsePlainLines(text, lines, ts, jsonParse);
  }

  /** Three complete fields give exactly one record: the price line completes it. */
  lemma SofaExample(text: string, jsonParse: string -> Option<Json>)
    requires text == "Item: Sofa\nDescription: Brown\nPrice: $100"
    requires jsonParse(text).None?
    ensures ParseAnalysisText(text, jsonParse) == Heuristic([Record(Some("Sofa"), Some("Brown"), Some("$100"))])
  {
    ThreeLineTexts();
    ExampleLinesPlain();
    SofaNameToken();
    SofaDescriptionToken();
    SofaPriceToken();
    ParseThreeLines(text, "Item: Sofa", "Description: Brown", "Price: $100",
      [Field(NameLine, "Sofa"), Field(DescriptionLine, "Brown"), Field(PriceLine, "$100")], jsonParse);
    SofaScan();
  }

  lemma SofaScan()
    ensures LineOutcome(Finish(Scan(Initial, [Field(NameLine, "Sofa"), Field(DescriptionLine, "Brown"), Field(PriceLine, "$100")])))
         == Heuristic([Record(Some("Sofa"), Some("Brown"), Some("$100"))])
  {
    ScanThree(Initial, Field(NameLine, "Sofa"), Field(DescriptionLine, "Brown"), Field(PriceLine, "$100"));
  }

  lemma JoinThree(a: string, b: string, c: string)
    ensures Join([a, b, c], '\n') == a + "\n" + b + "\n" + c
  {
    var l := [a, b, c];
    assert l[1..] == [b, c] && l[1..][1..] == [c];
    assert Join([c], '\n') == c;
    assert Join([b, c], '\n') == b + "\n" + c;
  }

  lemma JoinTwo(a: string, b: string)
    ensures Join([a, b], '\n') == a + "\n" + b
  {
    var l := [a, b];
    assert l[1..] == [b];
  }

  lemma TokensThree(a: string, b: string, c: string)
    ensures Tokens([a, b, c]) == [Tokenize(a), Tokenize(b), Tokenize(c)]
  {
  }

  lemma TokensTwo(a: string, b: string)
    ensures Tokens([a, b]) == [Tokenize(a), Tokenize(b)]
  {
  }

  lemma ScanThree(st: ScanState, a: Token, b: Token, c: Token)
    ensures Scan(st, [a, b, c]) == Step(Step(Step(st, a), b), c)
  {
    var ts := [a, b, c];
    assert ts[1..] == [b, c] && ts[1..][1..] == [c] && ts[1..][1..][1..] == [];
    assert Scan(st, ts) == Scan(Step(st, a), [b, c]);
    assert Scan(Step(st, a), [b, c]) == Scan(Step(Step(st, a), b), [c]);
    assert Scan(Step(Step(st, a), b), [c]) == Scan(Step(Step(Step(st, a), b), c), []);
  }

  lemma ScanTwo(st: ScanState, a: Token, b: Token)
    ensures Scan(st, [a, b]) == Step(Step(st, a), b)
  {
    var ts := [a, b];
    assert ts[1..] == [b] && ts[1..][1..] == [];
    assert Scan(st, ts) == Scan(Step(st, a), [b]);
    assert Scan(Step(st, a), [b]) == Scan(Step(Step(st, a), b), []);
  }

  /** The worked three-line replies split at their line breaks. */
  lemma ThreeLineTexts()
    ensures "Item: Sofa\nDescription: Brown\nPrice: $100" == "Item: Sofa" + "\n" + "Description: Brown" + "\n" + "Price: $100"
    ensures "Item:\nDescription: d\nPrice: p" == "Item:" + "\n" + "Description: d" + "\n" + "Price: p"
  {
  }

  /** The worked two-line replies split at their line breaks. */
  lemma TwoLineTexts()
    ensures "Item: a\nItem: b" == "Item: a" + "\n" + "Item: b"
    ensures "Description: d\nItem: a" == "Description: d" + "\n" + "Item: a"
    ensures "Item:\nItem: b" == "Item:" + "\n" + "Item: b"
  {
  }

  /** Every line of the worked replies is in the requested format. */
  lemma ExampleLinesPlain()
    ensures PlainLine("Item: Sofa") && PlainLine("Description: Brown") && PlainLine("Price: $100")
    ensures PlainLine("Item:") && PlainLine("Description: d") && PlainLine("Price: p")
    ensures PlainLine("Item: a") && PlainLine("Item: b")
  {
    PrintableLine("Item: Sofa");
    PrintableLine("Description: Brown");
    PrintableLine("Price: $100");
    PrintableLine("Item:");
    PrintableLine("Description: d");
    PrintableLine("Price: p");
    PrintableLine("Item: a");
    PrintableLine("Item: b");
  }

  /** A line of printable ASCII that starts with a capital letter and does
      not end in a space: neither pass of the cleaning touches it. */
  lemma PrintableLine(l: string)
    requires |l| > 0 && forall i :: 0 <= i < |l| ==> ' ' <= l[i] <= '~'
    requires 'A' <= l[0] <= 'Z' && l[|l| - 1] != ' '
    ensures PlainLine(l)
  {
  }

  lemma SofaNameToken()
    ensures Tokenize("Item: Sofa") == Field(NameLine, "Sofa")
  {
    NameFacts("Item: Sofa", "Item", " ", "Sofa");
    TokenizeKeyLine("Item: Sofa", "Item", " ", "Sofa", NameLine);
  }

  lemma SofaDescriptionToken()
    ensures Tokenize("Description: Brown") == Field(DescriptionLine, "Brown")
  {
    DescriptionFacts("Description: Brown", "Description", " ", "Brown");
    TokenizeKeyLine("Description: Brown", "Description", " ", "Brown", DescriptionLine);
  }

  lemma SofaPriceToken()
    ensures Tokenize("Price: $100") == Field(PriceLine, "$100")
  {
    PriceFacts("Price: $100", "Price", " ", "$100");
    TokenizeKeyLine("Price: $100", "Price", " ", "$100", PriceLine);
  }

  lemma NameFacts(line: string, key: string, pad: string, v: string)
    requires (line, key, pad, v) in [("Item: Sofa", "Item", " ", "Sofa"), ("Item:", "Item", "", ""),
                                     ("Item: a", "Item", " ", "a"), ("Item: b", "Item", " ", "b")]
    ensures KeyLine(line, key, pad, v) && Classify(line) == NameLine
  {
    assert Lower(line)[..5] == "item:";
  }

  lemma DescriptionFacts(line: string, key: string, pad: string, v: string)
    requires (line, key, pad, v) in [("Description: Brown", "Description", " ", "Brown"), ("Description: d", "Description", " ", "d")]
    ensures KeyLine(line, key, pad, v) && Classify(line) == DescriptionLine
  {
    var low := Lower(line);
    assert low[0] == 'd';
    assert low[..12] == "description:";
  }

  lemma PriceFacts(line: string, key: string, pad: string, v: string)
    requires (line, key, pad, v) in [("Price: $100", "Price", " ", "$100"), ("Price: p", "Price", " ", "p")]
    ensures KeyLine(line, key, pad, v) && Classify(line) == PriceLine
  {
    var low := Lower(line);
    assert low[0] == 'p' && low[1] == 'r';
    assert low[..6] == "price:";
  }

  // ---------------------------------------------------------------------------
  // The reply the prompt shows as its example

  /** Three lines in the requested format that tokenize to the name,
      description and price of a complete record parse to that record. */
  lemma ParsePromptedRecord(text: string, a: string, b: string, c: string, r: Record,
                            jsonParse: string -> Option<Json>)
    requires text == a + "\n" + b + "\n" + c
    requires PlainLine(a) && PlainLine(b) && PlainLine(c)
    requires Complete(r) && [Tokenize(a), Tokenize(b), Tokenize(c)] == RecordTokens(r)
    requires jsonParse(text).None?
    ensures ParseAnalysisText(text, jsonParse) == Heuristic([r])
  {
    ParseThreeLines(text, a, b, c, RecordTokens(r), jsonParse);
    OneRecordScan(r);
  }

  lemma OneRecordScan(r: Record)
    requires Complete(r)
    ensures Finish(Scan(Initial, RecordTokens(r))) == [r]
  {
    ScanRecordTokens([], r);
    assert [] + [r] == [r];
  }

  /** The description of the prompt's example item, written in two parts
      so that facts about it can be checked part by part. */
  const LeatherDescription := "Brown leather 3-seater sofa" + " with tufted back"

  /** The example item of the prompt, "Estimated Price:" key included,
      parses to the one complete record it describes. */
  lemma LeatherSofaExample(text: string, jsonParse: string -> Option<Json>)
    requires text == "Item: Leather Sofa" + "\n" + "Description: " + LeatherDescription + "\n" + "Estimated Price: $800-1200"
    requires jsonParse(text).None?
    ensures ParseAnalysisText(text, jsonParse)
         == Heuristic([Record(Some("Leather Sofa"), Some(LeatherDescription), Some("$800-1200"))])
  {
    var b := "Description: " + LeatherDescription;
    assert text == "Item: Leather Sofa" + "\n" + b + "\n" + "Estimated Price: $800-1200";
    LeatherSofaLinesPlain();
    LeatherNameToken();
    LeatherDescriptionToken();
    LeatherPriceToken();
    ParsePromptedRecord(text, "Item: Leather Sofa", b, "Estimated Price: $800-1200",
      Record(Some("Leather Sofa"), Some(LeatherDescription), Some("$800-1200")), jsonParse);
  }

  lemma LeatherSofaLinesPlain()
    ensures PlainLine("Item: Leather Sofa")
    ensures PlainLine("Description: " + LeatherDescription)
    ensures PlainLine("Estimated Price: $800-1200")
  {
    PrintableLine("Item: Leather Sofa");
    PrintableLine("Estimated Price: $800-1200");
    LeatherDescriptionPlain();
  }

  lemma LeatherDescriptionPlain()
    ensures PlainLine("Description: " + LeatherDescription)
  {
    LeatherDescriptionFacts();
    PlainLineAppend("Description: ", LeatherDescription);
  }

  lemma LeatherDescriptionFacts()
    ensures SingleLine(LeatherDescription) && ':' !in LeatherDescription
    ensures |LeatherDescription| > 0 && LeatherDescription[0] == 'B'
    ensures LeatherDescription[|LeatherDescription| - 1] == 'k'
  {
    var first, second := "Brown leather 3-seater sofa", " with tufted back";
    PlainText(first);
    PlainText(second);
    SingleLineAppend(first, second);
  }

  /** Printable ASCII outside the range from `:` to `@` holds no line break
      and no colon. */
  lemma PlainText(s: string)
    requires forall i :: 0 <= i < |s| ==> ' ' <= s[i] <= '9' || 'A' <= s[i] <= '~'
    ensures SingleLine(s) && ':' !in s
  {
  }

  lemma SingleLineAppend(a: string, b: string)
    requires SingleLine(a) && SingleLine(b)
    ensures SingleLine(a + b)
  {
  }

  /** A line that starts as a plain line does and ends on a non-space is
      plain. */
  lemma PlainLineAppend(a: string, b: string)
    requires SingleLine(a) && |a| > 0 && !IsSpace(a[0]) && !IsDigit(a[0]) && !IsMarker(a[0])
    requires SingleLine(b) && |b| > 0 && !IsSpace(b[|b| - 1])
    ensures PlainLine(a + b)
  {
    SingleLineAppend(a, b);
    assert (a + b)[0] == a[0] && (a + b)[|a + b| - 1] == b[|b| - 1];
  }

  lemma LeatherNameToken()
    ensures Tokenize("Item: Leather Sofa") == Field(NameLine, "Leather Sofa")
  {
    var key, v := "Item", "Leather Sofa";
    assert "Item: Leather Sofa" == key + ": " + v;
    assert ':' !in key && ':' !in v && v[0] == 'L' && v[|v| - 1] == 'a';
    assert Lower(key + ":") == "item:";
    ClassifyNameKey(key + ":", " " + v);
    SpacedKeyToken(key, v, NameLine);
  }

  lemma LeatherDescriptionToken()
    ensures Tokenize("Description: " + LeatherDescription) == Field(DescriptionLine, LeatherDescription)
  {
    var key, v := "Description", LeatherDescription;
    LeatherDescriptionFacts();
    assert "Description: " == key + ": " && ':' !in key;
    assert Lower(key + ":") == "description:";
    ClassifyDescriptionKey(key + ":", " " + v);
    SpacedKeyToken(key, v, DescriptionLine);
  }

  lemma LeatherPriceToken()
    ensures Tokenize("Estimated Price: $800-1200") == Field(PriceLine, "$800-1200")
  {
    var key, v := "Estimated Price", "$800-1200";
    assert "Estimated Price: $800-1200" == key + ": " + v;
    assert ':' !in key && ':' !in v && v[0] == '$' && v[|v| - 1] == '0';
    assert Lower(key + ":") == "estimated price:";
    ClassifyPriceKey(key + ":", " " + v);
    SpacedKeyToken(key, v, PriceLine);
  }

  /** `key: value` with one space after the colon, as the prompt writes it. */
  lemma SpacedKeyToken(key: string, v: string, k: LineKind)
    requires |key| > 0 && ':' !in key && !IsSpace(key[0])
    requires |v| > 0 && ':' !in v && !IsSpace(v[0]) && !IsSpace(v[|v| - 1])
    requires Classify((key + ":") + (" " + v)) == k && k != OtherLine
    ensures Tokenize(key + ": " + v) == Field(k, v)
  {
    var line := key + ": " + v;
    assert line == (key + ":") + (" " + v) == key + [':'] + " " + v;
    assert KeyLine(line, key, " ", v);
    TokenizeKeyLine(line, key, " ", v, k);
  }

  /** The price line of the prompt's template, indented as the template
      indents it (or by any other whitespace), gives the same field. */
  lemma IndentedTemplateLine(indent: string)
    requires forall i :: 0 <= i < |indent| ==> IsSpace(indent[i])
    ensures Tokenize(indent + "Estimated Price: $800-1200") == Field(PriceLine, "$800-1200")
  {
    var line := "Estimated Price: $800-1200";
    assert indent + line == indent + line + [];
    TokenizeIgnoresPadding(indent, line, []);
    LeatherPriceToken();
  }

  // ---------------------------------------------------------------------------
  // Edge cases of the line scan

  /** A name line with nothing after the colon still opens a record: its
      name is the empty string, and the price line completes it because all
      three keys are present, truthy or not. */
  lemma EmptyNameExample(text: string, jsonParse: string -> Option<Json>)
    requires text == "Item:\nDescription: d\nPrice: p"
    requires jsonParse(text).None?
    ensures ParseAnalysisText(text, jsonParse) == Heuristic([Record(Some(""), Some("d"), Some("p"))])
  {
    ThreeLineTexts();
    ExampleLinesPlain();
    EmptyNameTokens();
    ParseThreeLines(text, "Item:", "Description: d", "Price: p",
      [Field(NameLine, ""), Field(DescriptionLine, "d"), Field(PriceLine, "p")], jsonParse);
    EmptyNameScan();
  }

  lemma EmptyNameToken()
    ensures Tokenize("Item:") == Field(NameLine, "")
  {
    NameFacts("Item:", "Item", "", "");
    TokenizeKeyLine("Item:", "Item", "", "", NameLine);
  }

  lemma EmptyNameTokens()
    ensures Tokenize("Item:") == Field(NameLine, "")
    ensures Tokenize("Description: d") == Field(DescriptionLine, "d")
    ensures Tokenize("Price: p") == Field(PriceLine, "p")
  {
    EmptyNameToken();
    DescriptionToken();
    PriceToken();
  }

  lemma DescriptionToken()
    ensures Tokenize("Description: d") == Field(DescriptionLine, "d")
  {
    DescriptionFacts("Description: d", "Description", " ", "d");
    TokenizeKeyLine("Description: d", "Description", " ", "d", DescriptionLine);
  }

  lemma PriceToken()
    ensures Tokenize("Price: p") == Field(PriceLine, "p")
  {
    PriceFacts("Price: p", "Price", " ", "p");
    TokenizeKeyLine("Price: p", "Price", " ", "p", PriceLine);
  }

  lemma EmptyNameScan()
    ensures LineOutcome(Finish(Scan(Initial, [Field(NameLine, ""), Field(DescriptionLine, "d"), Field(PriceLine, "p")])))
         == Heuristic([Record(Some(""), Some("d"), Some("p"))])
  {
    ScanThree(Initial, Field(NameLine, ""), Field(DescriptionLine, "d"), Field(PriceLine, "p"));
  }

  /** A second name line closes the first record although it has neither
      description nor price; the second is kept at the end for its name. */
  lemma TwoNamesExample(text: string, jsonParse: string -> Option<Json>)
    requires text == "Item: a\nItem: b"
    requires jsonParse(text).None?
    ensures ParseAnalysisText(text, jsonParse) == Heuristic([Record(Some("a"), None, None), Record(Some("b"), None, None)])
  {
    TwoLineTexts();
    ExampleLinesPlain();
    TwoNamesTokens();
    ParseTwoLines(text, "Item: a", "Item: b", [Field(NameLine, "a"), Field(NameLine, "b")], jsonParse);
    TwoNamesScan();
  }

  lemma TwoNamesTokens()
    ensures Tokenize("Item: a") == Field(NameLine, "a")
    ensures Tokenize("Item: b") == Field(NameLine, "b")
  {
    assert Tokenize("Item: a") == Field(NameLine, "a") by {
      NameFacts("Item: a", "Item", " ", "a");
      TokenizeKeyLine("Item: a", "Item", " ", "a", NameLine);
    }
    assert Tokenize("Item: b") == Field(NameLine, "b") by {
      NameFacts("Item: b", "Item", " ", "b");
      TokenizeKeyLine("Item: b", "Item", " ", "b", NameLine);
    }
  }

  lemma TwoNamesScan()
    ensures LineOutcome(Finish(Scan(Initial, [Field(NameLine, "a"), Field(NameLine, "b")])))
         == Heuristic([Record(Some("a"), None, None), Record(Some("b"), None, None)])
  {
    ScanTwo(Initial, Field(NameLine, "a"), Field(NameLine, "b"));
  }

  /** A field that comes before any name line belongs to the record the
      next name line opens. */
  lemma FieldBeforeNameExample(text: string, jsonParse: string -> Option<Json>)
    requires text == "Description: d\nItem: a"
    requires jsonParse(text).None?
    ensures ParseAnalysisText(text, jsonParse) == Heuristic([Record(Some("a"), Some("d"), None)])
  {
    TwoLineTexts();
    ExampleLinesPlain();
    DescriptionToken();
    TwoNamesTokens();
    ParseTwoLines(text, "Description: d", "Item: a", [Field(DescriptionLine, "d"), Field(NameLine, "a")], jsonParse);
    FieldBeforeNameScan();
  }

  lemma FieldBeforeNameScan()
    ensures LineOutcome(Finish(Scan(Initial, [Field(DescriptionLine, "d"), Field(NameLine, "a")])))
         == Heuristic([Record(Some("a"), Some("d"), None)])
  {
    ScanTwo(Initial, Field(DescriptionLine, "d"), Field(NameLine, "a"));
  }

  /** A record whose name is empty is not closed by the next name line:
      the empty name is falsy, so the record is renamed instead of pushed. */
  lemma EmptyNameRenamedExample(text: string, jsonParse: string -> Option<Json>)
    requires text == "Item:\nItem: b"
    requires jsonParse(text).None?
    ensures ParseAnalysisText(text, jsonParse) == Heuristic([Record(Some("b"), None, None)])
  {
    TwoLineTexts();
    ExampleLinesPlain();
    EmptyNameToken();
    TwoNamesTokens();
    ParseTwoLines(text, "Item:", "Item: b", [Field(NameLine, ""), Field(NameLine, "b")], jsonParse);
    EmptyNameRenamedScan();
  }

  lemma EmptyNameRenamedScan()
    ensures LineOutcome(Finish(Scan(Initial, [Field(NameLine, ""), Field(NameLine, "b")])))
         == Heuristic([Record(Some("b"), None, None)])
  {
    ScanTwo(Initial, Field(NameLine, ""), Field(NameLine, "b"));
  }

  /** A lone name line with an empty value gives no record: the final push
      skips a falsy name, so the parser returns `null`. */
  lemma EmptyNameAloneExample(text: string, jsonParse: string -> Option<Json>)
    requires text == "Item:"
    requires jsonParse(text).None?
    ensures ParseAnalysisText(text, jsonParse) == NoData
  {
    PrintableLine("Item:");
    EmptyNameToken();
    ParseOneLine(text, [Field(NameLine, "")], jsonParse);
    EmptyNameAloneScan([Field(NameLine, "")]);
  }

  lemma EmptyNameAloneScan(ts: seq<Token>)
    requires ts == [Field(NameLine, "")]
    ensures LineOutcome(Finish(Scan(Initial, ts))) == NoData
  {
    assert ts[1..] == [];
    assert Scan(Initial, ts) == Step(Initial, ts[0]);
  }

  /** Only the text between the first and the second colon is the value. */
  lemma SecondColonCutsValue(line: string, key: string, v: string, rest: string)
    requires key == "Price" && v == " $100" && rest == " firm"
    requires line == key + [':'] + v + [':'] + rest
    ensures FieldValue(line) == Some("$100")
  {
    assert ':' !in key && ':' !in v;
    FieldValueBetweenColons(key, v, rest);
    assert v == " " + "$100";
    assert Trim(v) == "$100" by {
      assert IsSpace(' ') && !IsSpace('$') && !IsSpace('0');
      TrimPadded(" ", "$100");
    }
  }
}

=== FILE: pagination.dfy ===
/** The page loop of the PDF export: the page image is drawn whole on every
    page, each time shifted up by one page height, until the height left
    goes negative. Heights are exact reals; the rasterised image and the
    PDF library are not modelled. */
module Pagination {

  /** One `addImage` call: whether `addPage` came first, the vertical offset
      of the image on the page, and the height it is drawn at. */
  datatype Draw = Draw(newPage: bool, y: real, height: real)

  /** The number of loop iterations: none for a negative height, otherwise
      one more than the number of whole pages the height spans. */
  function PageCount(imageHeight: real, pageHeight: real): (n: nat)
    requires pageHeight > 0.0
    ensures n == 0 <==> imageHeight < 0.0
  {
    if imageHeight < 0.0 then 0 else (imageHeight / pageHeight).Floor + 1
  }

  /** The draw of page `k` (0-based): a new page except for the first,
      the image moved up by `k` pages, at its full height. */
  function PageDraw(k: nat, imageHeight: real, pageHeight: real): Draw
  {
    Draw(k > 0, -(k as real) * pageHeight, imageHeight)
  }

  /** `downloadPDF`'s `while (heightLeft >= 0)` loop. */
  method Paginate(imageHeight: real, pageHeight: real) returns (draws: seq<Draw>)
    requires pageHeight > 0.0
    ensures |draws| == PageCount(imageHeight, pageHeight)
    ensures forall k :: 0 <= k < |draws| ==> draws[k] == PageDraw(k, imageHeight, pageHeight)
  {
    var heightLeft := imageHeight;
    var position := 0.0;
    var page := 1;
    draws := [];
    while heightLeft >= 0.0
      invariant page == |draws| + 1
      invariant heightLeft == imageHeight - (|draws| as real) * pageHeight
      invariant position == -(|draws| as real) * pageHeight
      invariant forall k :: 0 <= k < |draws| ==> draws[k] == PageDraw(k, imageHeight, pageHeight)
      invariant imageHeight < 0.0 ==> |draws| == 0
      invariant imageHeight >= 0.0 ==> (|draws| as real - 1.0) * pageHeight <= imageHeight
      decreases if heightLeft < 0.0 then 0 else (heightLeft / pageHeight).Floor + 1
    {
      FloorStep(heightLeft, pageHeight);
      draws := draws + [Draw(page > 1, position, imageHeight)];
      heightLeft := heightLeft - pageHeight;
      position := position - pageHeight;
      page := page + 1;
    }
    if imageHeight >= 0.0 {
      CountFromBounds(imageHeight, pageHeight, |draws|);
    }
  }

  /** Taking one page off the height lowers its page count by one. */
  lemma FloorStep(h: real, p: real)
    requires p > 0.0 && h >= 0.0
    ensures ((h - p) / p).Floor == (h / p).Floor - 1
  {
    var q := h / p;
    DivMul(h, p);
    assert (q - 1.0) * p == h - p;
    DivUnique(h - p, p, q - 1.0);
  }

  /** The page count is the one number of pages whose last page starts
      within the image (or at its lower edge) and which together reach
      past its end. */
  lemma CountFromBounds(imageHeight: real, pageHeight: real, k: nat)
    requires pageHeight > 0.0 && imageHeight >= 0.0
    ensures k == PageCount(imageHeight, pageHeight) <==>
      (k as real - 1.0) * pageHeight <= imageHeight < (k as real) * pageHeight
  {
    CountWithinBounds(imageHeight, pageHeight);
    if (k as real - 1.0) * pageHeight <= imageHeight < (k as real) * pageHeight {
      BoundsFixCount(imageHeight, pageHeight, k);
    }
  }

  lemma CountWithinBounds(imageHeight: real, pageHeight: real)
    requires pageHeight > 0.0 && imageHeight >= 0.0
    ensures var k := PageCount(imageHeight, pageHeight);
      (k as real - 1.0) * pageHeight <= imageHeight < (k as real) * pageHeight
  {
    var k := PageCount(imageHeight, pageHeight);
    var q := imageHeight / pageHeight;
    DivMul(imageHeight, pageHeight);
    FloorBounds(q);
    assert k as real - 1.0 == q.Floor as real;
    MulLe(k as real - 1.0, q, pageHeight);
    MulLt(q, k as real, pageHeight);
    calc {
      imageHeight;
      == q * pageHeight;
      < (k as real) * pageHeight;
    }
  }

  lemma BoundsFixCount(imageHeight: real, pageHeight: real, k: nat)
    requires pageHeight > 0.0 && imageHeight >= 0.0
    requires (k as real - 1.0) * pageHeight <= imageHeight < (k as real) * pageHeight
    ensures k == PageCount(imageHeight, pageHeight)
  {
    var q := imageHeight / pageHeight;
    DivMul(imageHeight, pageHeight);
    FloorBounds(q);
    calc {
      (k as real - 1.0) * pageHeight;
      <= imageHeight;
      == q * pageHeight;
    }
    calc {
      q * pageHeight;
      == imageHeight;
      < (k as real) * pageHeight;
    }
    CancelLe(k as real - 1.0, q, pageHeight);
    CancelLt(q, k as real, pageHeight);
  }

  lemma CancelLe(a: real, b: real, p: real)
    requires p > 0.0 && a * p <= b * p
    ensures a <= b
  {
    if a > b {
      MulLt(b, a, p);
    }
  }

  lemma CancelLt(a: real, b: real, p: real)
    requires p > 0.0 && a * p < b * p
    ensures a < b
  {
    if a >= b {
      MulLe(b, a, p);
    }
  }

  lemma FloorBounds(x: real)
    ensures x.Floor as real <= x < x.Floor as real + 1.0
  {
  }

  lemma DivMul(h: real, p: real)
    requires p > 0.0
    ensures (h / p) * p == h
  {
  }

  lemma DivUnique(h: real, p: real, q: real)
    requires p > 0.0 && q * p == h
    ensures h / p == q
  {
  }

  lemma MulLe(a: real, b: real, p: real)
    requires a <= b && p > 0.0
    ensures a * p <= b * p
  {
  }

  lemma MulLt(a: real, b: real, p: real)
    requires a < b && p > 0.0
    ensures a * p < b * p
  {
  }

  /** A height that is an exact multiple of the page height gets one page
      more than it fills: the last draw starts at the image's lower edge,
      so that page shows none of it. */
  lemma ExactMultipleAddsBlankPage(imageHeight: real, pageHeight: real, n: nat)
    requires pageHeight > 0.0 && imageHeight == (n as real) * pageHeight
    ensures PageCount(imageHeight, pageHeight) == n + 1
    ensures PageDraw(n, imageHeight, pageHeight).y == -imageHeight
  {
    CountFromBounds(imageHeight, pageHeight, n + 1);
  }

  /** Every page but the last starts inside the image, and the pages reach
      past its end. */
  lemma PagesCoverImage(imageHeight: real, pageHeight: real)
    requires pageHeight > 0.0 && imageHeight >= 0.0
    ensures var n := PageCount(imageHeight, pageHeight);
      n >= 1 && (n as real - 1.0) * pageHeight <= imageHeight < (n as real) * pageHeight
  {
    CountFromBounds(imageHeight, pageHeight, PageCount(imageHeight, pageHeight));
  }
}

=== FILE: text.dfy ===
/** The JavaScript string primitives the analysis code relies on: the `\s`
    character class, `trim`, ASCII `toLowerCase`, `startsWith` and `split`. */
module Text {

  /** JavaScript's WhiteSpace and LineTerminator characters: the set matched by
      the regular-expression class `\s` and removed by `String.prototype.trim`. */
  predicate IsSpace(c: char)
  {
    if c <= ' ' then c == ' ' || ('\t' <= c <= '\r')
    else if c < '\U{00A0}' then false
    else
      || c == '\U{00A0}' || c == '\U{1680}'
      || ('\U{2000}' <= c <= '\U{200A}')
      || c == '\U{2028}' || c == '\U{2029}' || c == '\U{202F}' || c == '\U{205F}'
      || c == '\U{3000}' || c == '\U{FEFF}'
  }

  /** The characters after which the multiline anchor `^` matches. */
  predicate IsLineTerminator(c: char)
  {
    c == '\n' || c == '\r' || c == '\U{2028}' || c == '\U{2029}'
  }

  /** The regular-expression class `\d`: ASCII decimal digits only. */
  predicate IsDigit(c: char)
  {
    '0' <= c <= '9'
  }

  /** Length of the longest prefix of `s` made of ASCII digits. */
  function DigitRun(s: string): (n: nat)
    ensures n <= |s|
    ensures forall i :: 0 <= i < n ==> IsDigit(s[i])
    ensures n == |s| || !IsDigit(s[n])
  {
    if |s| > 0 && IsDigit(s[0]) then 1 + DigitRun(s[1..]) else 0
  }

  /** A digit run ends at or before the first character that is not a digit. */
  lemma DigitRunStops(s: string, j: nat)
    requires j < |s| && !IsDigit(s[j])
    ensures DigitRun(s) <= j
  {
  }

  /** Leading whitespace removed. */
  function TrimStart(s: string): (r: string)
    ensures |r| <= |s| && r == s[|s| - |r|..]
    ensures forall i :: 0 <= i < |s| - |r| ==> IsSpace(s[i])
    ensures r == [] || !IsSpace(r[0])
  {
    if |s| > 0 && IsSpace(s[0]) then TrimStart(s[1..]) else s
  }

  /** Trailing whitespace removed. */
  function TrimEnd(s: string): (r: string)
    ensures |r| <= |s| && r == s[..|r|]
    ensures forall i :: |r| <= i < |s| ==> IsSpace(s[i])
    ensures r == [] || !IsSpace(r[|r| - 1])
  {
    if |s| > 0 && IsSpace(s[|s| - 1]) then TrimEnd(s[..|s| - 1]) else s
  }

  /** `String.prototype.trim`. */
  function Trim(s: string): (r: string)
  {
    TrimEnd(TrimStart(s))
  }

  /** `r` is the slice of `s` starting at `a`, and everything outside it is whitespace. */
  ghost predicate SliceAmidSpace(s: string, r: string, a: int)
  {
    && 0 <= a <= |s| - |r| && r == s[a..a + |r|]
    && (forall i :: 0 <= i < a ==> IsSpace(s[i]))
    && (forall i :: a + |r| <= i < |s| ==> IsSpace(s[i]))
  }

  /** `r` is `s` with some whitespace removed at each end and nothing else. */
  ghost predicate IsTrimOf(s: string, r: string)
  {
    && (r == [] || (!IsSpace(r[0]) && !IsSpace(r[|r| - 1])))
    && exists a :: SliceAmidSpace(s, r, a)
  }

  lemma TrimIsTrimOf(s: string)
    ensures IsTrimOf(s, Trim(s))
  {
    var t := TrimStart(s);
    var r := TrimEnd(t);
    SliceOfSlice(s, t, r, |s| - |t|);
    assert r == [] || (!IsSpace(r[0]) && !IsSpace(r[|r| - 1])) by {
      if r != [] {
        assert r[0] == t[0];
      }
    }
  }

  /** Trimming only removes characters: every character of the trim
      occurs in `s`. */
  lemma TrimAddsNothing(s: string, c: char)
    ensures c in Trim(s) ==> c in s
  {
    var t := TrimStart(s);
    assert forall x :: x in t ==> x in s;
    assert forall x :: x in TrimEnd(t) ==> x in t;
  }

  /** A slice with whitespace before it, and a prefix of that slice with
      whitespace after it: the prefix lies amid whitespace. */
  lemma SliceOfSlice(s: string, t: string, r: string, a: nat)
    requires a <= |s| && t == s[a..] && forall i :: 0 <= i < a ==> IsSpace(s[i])
    requires |r| <= |t| && r == t[..|r|] && forall i :: |r| <= i < |t| ==> IsSpace(t[i])
    ensures SliceAmidSpace(s, r, a)
  {
    forall i | a + |r| <= i < |s|
      ensures IsSpace(s[i])
    {
      assert s[i] == t[i - a];
    }
  }

  /** Trimming trimmed text changes nothing. */
  lemma TrimIdempotent(s: string)
    ensures Trim(Trim(s)) == Trim(s)
  {
    var r := Trim(s);
    assert TrimStart(r) == r;
    assert TrimEnd(r) == r;
  }

  /** A string with no whitespace at either end is its own trim. */
  lemma TrimOfTrimmed(s: string)
    requires s == [] || (!IsSpace(s[0]) && !IsSpace(s[|s| - 1]))
    ensures Trim(s) == s
  {
    assert TrimStart(s) == s;
  }

  /** Trimming whitespace padding off text with no whitespace at its ends
      leaves that text. */
  lemma {:induction false} TrimPadded(pad: string, core: string)
    requires forall i :: 0 <= i < |pad| ==> IsSpace(pad[i])
    requires core == [] || (!IsSpace(core[0]) && !IsSpace(core[|core| - 1]))
    ensures Trim(pad + core) == core
    decreases |pad|
  {
    if |pad| == 0 {
      assert pad + core == core;
      TrimOfTrimmed(core);
    } else {
      assert (pad + core)[1..] == pad[1..] + core;
      TrimPadded(pad[1..], core);
    }
  }

  /** Whitespace around a string does not change its trim. */
  lemma TrimIgnoresPadding(pre: string, s: string, post: string)
    requires forall i :: 0 <= i < |pre| ==> IsSpace(pre[i])
    requires forall i :: 0 <= i < |post| ==> IsSpace(post[i])
    ensures Trim(pre + s + post) == Trim(s)
  {
    assert pre + s + post == pre + (s + post);
    TrimStartPadded(pre, s + post);
    var t := TrimStart(s);
    if t == [] {
      TrimStartAppend(s, post);
      TrimStartPadded(post, []);
      assert post + [] == post;
    } else {
      TrimStartAppend(s, post);
      TrimEndPadded(t, post);
    }
  }

  /** Leading whitespace is all `TrimStart` looks past. */
  lemma {:induction false} TrimStartPadded(pre: string, s: string)
    requires forall i :: 0 <= i < |pre| ==> IsSpace(pre[i])
    ensures TrimStart(pre + s) == TrimStart(s)
    decreases |pre|
  {
    if |pre| == 0 {
      assert pre + s == s;
    } else {
      assert (pre + s)[0] == pre[0] && (pre + s)[1..] == pre[1..] + s;
      TrimStartPadded(pre[1..], s);
    }
  }

  /** Trailing whitespace is all `TrimEnd` looks past. */
  lemma {:induction false} TrimEndPadded(s: string, post: string)
    requires forall i :: 0 <= i < |post| ==> IsSpace(post[i])
    ensures TrimEnd(s + post) == TrimEnd(s)
    decreases |post|
  {
    if |post| == 0 {
      assert s + post == s;
    } else {
      var u := s + post;
      assert u[|u| - 1] == post[|post| - 1];
      assert u[..|u| - 1] == s + post[..|post| - 1];
      TrimEndPadded(s, post[..|post| - 1]);
    }
  }

  /** `TrimStart` of a concatenation: the first string's trim followed by the
      second, unless the first is all whitespace. */
  lemma {:induction false} TrimStartAppend(s: string, post: string)
    ensures TrimStart(s) != [] ==> TrimStart(s + post) == TrimStart(s) + post
    ensures TrimStart(s) == [] ==> TrimStart(s + post) == TrimStart(post)
    decreases |s|
  {
    if |s| == 0 {
      assert s + post == post;
    } else {
      assert (s + post)[0] == s[0] && (s + post)[1..] == s[1..] + post;
      if IsSpace(s[0]) {
        TrimStartAppend(s[1..], post);
      }
    }
  }

  /** ASCII upper-case letters lowered; every other character kept. */
  function LowerChar(c: char): (d: char)
    ensures IsSpace(d) <==> IsSpace(c)
    ensures ('A' <= c <= 'Z') ==> ('a' <= d <= 'z') && d as int - c as int == 32
    ensures !('A' <= c <= 'Z') ==> d == c
  {
    if 'A' <= c <= 'Z' then (c as int + 32) as char else c
  }

  /** `String.prototype.toLowerCase`, restricted to ASCII. */
  function Lower(s: string): (r: string)
    ensures |r| == |s|
    ensures forall i :: 0 <= i < |s| ==> r[i] == LowerChar(s[i])
  {
    seq(|s|, i requires 0 <= i < |s| => LowerChar(s[i]))
  }

  lemma LowerIdempotent(s: string)
    ensures Lower(Lower(s)) == Lower(s)
  {
  }

  predicate StartsWith(s: string, prefix: string)
  {
    |prefix| <= |s| && s[..|prefix|] == prefix
  }

  /** `parts` joined back together with `sep` between neighbours. */
  function Join(parts: seq<string>, sep: char): string
    requires |parts| >= 1
  {
    if |parts| == 1 then parts[0] else parts[0] + [sep] + Join(parts[1..], sep)
  }

  /** `String.prototype.split` with a one-character separator: the pieces
      between consecutive separators, at least one piece, none containing
      the separator, and joining them back gives the input. */
  function Split(s: string, sep: char): (parts: seq<string>)
    ensures |parts| >= 1
    ensures forall i :: 0 <= i < |parts| ==> sep !in parts[i]
    ensures Join(parts, sep) == s
  {
    if |s| == 0 then [""]
    else
      var rest := Split(s[1..], sep);
      if s[0] == sep then [""] + rest
      else
        assert Join(rest, sep) == s[1..];
        JoinConsFirst(rest, sep, s[0]);
        [[s[0]] + rest[0]] + rest[1..]
  }

  lemma JoinConsFirst(parts: seq<string>, sep: char, c: char)
    requires |parts| >= 1
    ensures Join([[c] + parts[0]] + parts[1..], sep) == [c] + Join(parts, sep)
  {
    var p := [[c] + parts[0]] + parts[1..];
    assert p[1..] == parts[1..];
  }

  /** Splitting undoes joining, when no piece contains the separator. */
  lemma {:induction false} SplitJoin(parts: seq<string>, sep: char)
    requires |parts| >= 1
    requires forall i :: 0 <= i < |parts| ==> sep !in parts[i]
    ensures Split(Join(parts, sep), sep) == parts
    decreases |parts|, |parts[0]|
  {
    var p0 := parts[0];
    if |p0| == 0 {
      if |parts| == 1 {
      } else {
        var s := Join(parts, sep);
        assert s == [sep] + Join(parts[1..], sep);
        assert s[1..] == Join(parts[1..], sep);
        SplitJoin(parts[1..], sep);
        assert parts == [""] + parts[1..];
      }
    } else {
      var tail := [p0[1..]] + parts[1..];
      assert sep !in tail[0];
      forall i | 0 <= i < |tail| ensures sep !in tail[i] {
        if i > 0 { assert tail[i] == parts[i]; }
      }
      SplitJoin(tail, sep);
      JoinConsFirst(tail, sep, p0[0]);
      assert [p0[0]] + tail[0] == p0;
      assert tail[1..] == parts[1..];
      assert [[p0[0]] + tail[0]] + tail[1..] == parts;
      var s := Join(parts, sep);
      assert s == [p0[0]] + Join(tail, sep);
      assert s[0] == p0[0] && s[1..] == Join(tail, sep);
    }
  }

  /** Splitting text that starts with a separator-free piece and a separator
      yields that piece first. */
  lemma {:induction false} SplitFirst(a: string, sep: char, b: string)
    requires sep !in a
    ensures Split(a + [sep] + b, sep) == [a] + Split(b, sep)
    decreases |a|
  {
    var s := a + [sep] + b;
    if |a| == 0 {
      assert s[1..] == b;
    } else {
      assert s[1..] == a[1..] + [sep] + b;
      SplitFirst(a[1..], sep, b);
      assert [a[0]] + a[1..] == a;
    }
  }

  /** Text without the separator splits into itself alone. */
  lemma {:induction false} SplitWithoutSeparator(a: string, sep: char)
    requires sep !in a
    ensures Split(a, sep) == [a]
  {
    SplitJoin([a], sep);
  }

  /** There is more than one piece exactly when the separator occurs. */
  lemma SplitCount(s: string, sep: char)
    ensures |Split(s, sep)| > 1 <==> sep in s
  {
    var parts := Split(s, sep);
    if |parts| > 1 {
      assert s == parts[0] + [sep] + Join(parts[1..], sep);
      assert s[|parts[0]|] == sep;
    } else {
      assert s == parts[0];
    }
  }

  // ---------------------------------------------------------------------------
  // Deleting elements

  /** `r` is obtained from `s` by deleting elements. */
  ghost predicate IsSubsequence<T>(r: seq<T>, s: seq<T>)
  {
    || r == []
    || (s != [] && ((r[0] == s[0] && IsSubsequence(r[1..], s[1..])) || IsSubsequence(r, s[1..])))
  }

  lemma SubsequenceOfEqual<T>(r: seq<T>, s: seq<T>, r': seq<T>, s': seq<T>)
    requires IsSubsequence(r, s) && r == r' && s == s'
    ensures IsSubsequence(r', s')
  {
  }

  lemma {:induction false} SubsequenceOfSuffix<T>(r: seq<T>, s: seq<T>, n: nat)
    requires n <= |s|
    requires IsSubsequence(r, s[n..])
    ensures IsSubsequence(r, s)
    decreases n
  {
    if n > 0 {
      assert s[n - 1..][1..] == s[n..];
      SubsequenceOfSuffix(r, s, n - 1);
    }
  }

  lemma {:induction false} SubsequenceOfEmpty<T>(r: seq<T>)
    requires IsSubsequence(r, [])
    ensures r == []
  {
  }

  lemma {:induction false} SubsequenceTransitive<T>(a: seq<T>, b: seq<T>, c: seq<T>)
    requires IsSubsequence(a, b) && IsSubsequence(b, c)
    ensures IsSubsequence(a, c)
    decreases |c|
  {
    if a == [] {
    } else if b == [] {
      SubsequenceOfEmpty(a);
    } else if c == [] {
      SubsequenceOfEmpty(b);
    } else if IsSubsequence(b, c[1..]) {
      SubsequenceTransitive(a, b, c[1..]);
    } else {
      assert b[0] == c[0] && IsSubsequence(b[1..], c[1..]);
      if a[0] == b[0] && IsSubsequence(a[1..], b[1..]) {
        SubsequenceTransitive(a[1..], b[1..], c[1..]);
      } else {
        SubsequenceTransitive(a, b[1..], c[1..]);
      }
    }
  }

  lemma {:induction false} PrefixIsSubsequence<T>(s: seq<T>, k: nat)
    requires k <= |s|
    ensures IsSubsequence(s[..k], s)
    decreases k
  {
    if k > 0 {
      PrefixIsSubsequence(s[1..], k - 1);
      assert s[..k][1..] == s[1..][..k - 1];
    }
  }


  lemma {:induction false} SingletonAtEnd<T>(b: seq<T>, x: T)
    ensures IsSubsequence([x], b + [x])
    decreases |b|
  {
    if |b| > 0 {
      assert (b + [x])[1..] == b[1..] + [x];
      SingletonAtEnd(b[1..], x);
    } else {
      assert [x][1..] == [] && (b + [x])[1..] == [];
    }
  }

  /** Appending the same element to both sides keeps a subsequence. */
  lemma {:induction false} SubsequenceAppend<T>(a: seq<T>, b: seq<T>, x: T)
    requires IsSubsequence(a, b)
    ensures IsSubsequence(a + [x], b + [x])
    decreases |b|
  {
    if a == [] {
      SingletonAtEnd(b, x);
      assert a + [x] == [x];
    } else if b == [] {
      SubsequenceOfEmpty(a);
    } else {
      assert (a + [x])[0] == a[0] && (a + [x])[1..] == a[1..] + [x];
      assert (b + [x])[0] == b[0] && (b + [x])[1..] == b[1..] + [x];
      if a[0] == b[0] && IsSubsequence(a[1..], b[1..]) {
        SubsequenceAppend(a[1..], b[1..], x);
      } else {
        SubsequenceAppend(a, b[1..], x);
      }
    }
  }

  /** A prefix of a subsequence is a subsequence. */
  lemma SubsequenceDropTail<T>(a: seq<T>, c: seq<T>, b: seq<T>)
    requires IsSubsequence(a + c, b)
    ensures IsSubsequence(a, b)
  {
    PrefixIsSubsequence(a + c, |a|);
    assert (a + c)[..|a|] == a;
    SubsequenceTransitive(a, a + c, b);
  }
}

=== FILE: total_examples.dfy ===
/** Worked price strings for the total, and the parser output that the
    total cannot take. */
module TotalExamples {
  import opened Wrappers
  import opened Text
  import opened Analysis
  import opened Valuation
  import opened Examples

  // ---------------------------------------------------------------------------
  // Reading the runs of a price

  /** The first two runs of a price with a non-empty separator between them. */
  lemma FirstTwoRuns(g0: string, a: string, g1: string, b: string, rest: string)
    requires NoDigit(g0) && NoDigit(g1) && |g1| > 0
    requires |a| > 0 && AllDigits(a) && |b| > 0 && AllDigits(b)
    requires rest == [] || !IsDigit(rest[0])
    ensures var runs := DigitRuns(g0 + a + g1 + b + rest);
      |runs| >= 2 && runs[0] == a && runs[1] == b
  {
    var t1 := b + rest;
    var t2 := g1 + t1;
    var t3 := a + t2;
    assert DigitRuns(t1) == [b] + DigitRuns(rest) by { RunPrefix(b, rest); }
    assert DigitRuns(t2) == DigitRuns(t1) by { NoDigitPrefix(g1, t1); }
    assert DigitRuns(t3) == [a] + DigitRuns(t2) by {
      assert t2[0] == g1[0];
      RunPrefix(a, t2);
    }
    assert DigitRuns(g0 + t3) == DigitRuns(t3) by { NoDigitPrefix(g0, t3); }
    Regroup(g0, a, g1, b, rest);
    var runs := DigitRuns(g0 + t3);
    assert runs == [a] + ([b] + DigitRuns(rest));
  }

  /** The price string grouped the way the runs are read off it. */
  lemma Regroup(g0: string, a: string, g1: string, b: string, rest: string)
    ensures g0 + a + g1 + b + rest == g0 + (a + (g1 + (b + rest)))
  {
  }

  /** A price whose only run is `a`. */
  lemma OnlyRun(g0: string, a: string, rest: string)
    requires NoDigit(g0) && NoDigit(rest)
    requires |a| > 0 && AllDigits(a)
    ensures DigitRuns(g0 + a + rest) == [a]
  {
    NoDigitPrefix(rest, []);
    assert rest + [] == rest;
    RunPrefix(a, rest);
    NoDigitPrefix(g0, a + rest);
    assert g0 + a + rest == g0 + (a + rest);
  }

  /** A range price counts as the mean of its ends. */
  lemma RangeValue(price: string, g0: string, a: string, g1: string, b: string, rest: string)
    requires price == g0 + a + g1 + b + rest && price != "N/A"
    requires NoDigit(g0) && NoDigit(g1) && |g1| > 0
    requires |a| > 0 && AllDigits(a) && |b| > 0 && AllDigits(b)
    requires rest == [] || !IsDigit(rest[0])
    ensures PriceValue(price) == (DecimalValue(a) + DecimalValue(b)) as real / 2.0
  {
    FirstTwoRuns(g0, a, g1, b, rest);
  }

  lemma SingleValue(price: string, g0: string, a: string, rest: string)
    requires price == g0 + a + rest && price != "N/A"
    requires NoDigit(g0) && NoDigit(rest)
    requires |a| > 0 && AllDigits(a)
    ensures PriceValue(price) == DecimalValue(a) as real
  {
    OnlyRun(g0, a, rest);
  }

  /** The value of a numeral, from the digits up. */
  lemma NumeralValue(s: string, n: nat)
    requires s == Numeral(n)
    ensures AllDigits(s) && DecimalValue(s) == n
  {
    DecimalValueOfNumeral(n);
  }

  // ---------------------------------------------------------------------------
  // Prices

  /** "$800-1200" is the range 800 to 1200 and counts 1000. */
  lemma RangeExample(price: string)
    requires price == "$800-1200"
    ensures PriceValue(price) == 1000.0
  {
    Value800();
    Value1200();
    assert price == "$" + "800" + "-" + "1200" + "";
    RangeValue(price, "$", "800", "-", "1200", "");
  }

  lemma Value800()
    ensures AllDigits("800") && DecimalValue("800") == 800
  {
    assert Numeral(8) == "8" && Numeral(80) == "80" && Numeral(800) == "800";
    NumeralValue("800", 800);
  }

  lemma Value1200()
    ensures AllDigits("1200") && DecimalValue("1200") == 1200
  {
    assert Numeral(1) == "1" && Numeral(12) == "12" && Numeral(120) == "120" && Numeral(1200) == "1200";
    NumeralValue("1200", 1200);
  }

  lemma Value200()
    ensures AllDigits("200") && DecimalValue("200") == 200
  {
    assert Numeral(2) == "2" && Numeral(20) == "20" && Numeral(200) == "200";
    NumeralValue("200", 200);
  }

  /** Only the first two of several numbers count: "1-2-3-4" is 1.5. */
  lemma ManyNumbersExample(price: string)
    requires price == "1-2-3-4"
    ensures PriceValue(price) == 1.5
  {
    NumeralValue("1", 1);
    NumeralValue("2", 2);
    assert price == "" + "1" + "-" + "2" + "-3-4";
    RangeValue(price, "", "1", "-", "2", "-3-4");
  }

  /** A thousands separator splits the number: "$1,200" is (1 + 200) / 2. */
  lemma ThousandsSeparatorExample(price: string)
    requires price == "$1,200"
    ensures PriceValue(price) == 100.5
  {
    Value200();
    NumeralValue("1", 1);
    assert price == "$" + "1" + "," + "200" + "";
    RangeValue(price, "$", "1", ",", "200", "");
  }

  /** "$50" is 50. */
  lemma SinglePriceExample(price: string)
    requires price == "$50"
    ensures PriceValue(price) == 50.0
  {
    assert Numeral(5) == "5" && Numeral(50) == "50";
    NumeralValue("50", 50);
    assert price == "$" + "50" + "";
    SingleValue(price, "$", "50", "");
  }

  /** The three items "$800-1200", "$50" and "N/A" total 1050. */
  lemma ThreeItemTotal(items: seq<Record>)
    requires items == [Record(Some("Sofa"), Some("Brown"), Some("$800-1200")),
                       Record(Some("Lamp"), Some("Brass"), Some("$50")),
                       Record(Some("Rug"), Some("Wool"), Some("N/A"))]
    ensures AllPriced(items)
    ensures Total(items) == 1050.0
  {
    TotalThree(items, items[0], items[1], items[2]);
    RangeExample("$800-1200");
    SinglePriceExample("$50");
  }

  /** Three priced items total the sum of their values. */
  lemma TotalThree(items: seq<Record>, a: Record, b: Record, c: Record)
    requires items == [a, b, c]
    requires a.estimatedPrice.Some? && b.estimatedPrice.Some? && c.estimatedPrice.Some?
    ensures AllPriced(items)
    ensures Total(items) == PriceValue(a.estimatedPrice.value) + PriceValue(b.estimatedPrice.value)
      + PriceValue(c.estimatedPrice.value)
  {
    TotalOne(a);
    TotalOne(b);
    TotalOne(c);
    TotalAppend([a], [b]);
    assert [a] + [b] == [a, b];
    TotalAppend([a, b], [c]);
    assert [a, b] + [c] == items;
  }

  /** One item totals its own contribution. */
  lemma TotalOne(r: Record)
    requires r.estimatedPrice.Some?
    ensures AllPriced([r])
    ensures Total([r]) == PriceValue(r.estimatedPrice.value)
  {
    assert [r][..0] == [];
  }

  // ---------------------------------------------------------------------------
  // Records without a price

  /** The reply "Item: a\nItem: b" reaches the page as two records with no
      price, which the page's total cannot read: `calculateTotal` calls
      `match` on an undefined price and throws. */
  lemma ParsedItemsMayLackPrice(text: string, jsonParse: string -> Option<Json>)
    requires text == "Item: a\nItem: b"
    requires jsonParse(text).None?
    ensures SelectReply(text, jsonParse).RecordItems?
    ensures !AllPriced(SelectReply(text, jsonParse).records)
  {
    var rs := [Record(Some("a"), None, None), Record(Some("b"), None, None)];
    TwoNamesReply(text, jsonParse, rs);
    assert rs[0].estimatedPrice.None?;
  }

  lemma TwoNamesReply(text: string, jsonParse: string -> Option<Json>, rs: seq<Record>)
    requires text == "Item: a\nItem: b"
    requires jsonParse(text).None?
    requires rs == [Record(Some("a"), None, None), Record(Some("b"), None, None)]
    ensures SelectReply(text, jsonParse) == RecordItems(rs)
  {
    TwoNamesExample(text, jsonParse);
  }
}

=== FILE: upload.dfy ===
/** The upload checks made twice: in the browser before the image is sent
    (`handleImageUpload`, app/page.tsx) and again by the analysis route
    (`POST`, app/api/analyze/route.ts). */
module Upload {
  import opened Text
  import opened Wrappers

  /** 4 MiB, the largest accepted upload. */
  const MaxUploadBytes: nat := 4 * 1024 * 1024

  /** What both checks read of the chosen file: its MIME type and its size in bytes. */
  datatype FileInfo = FileInfo(mimeType: string, size: nat)

  /** The first check a file fails, if any; the type is checked before the size. */
  datatype Verdict = Accepted | NotAnImage | TooLarge

  predicate IsImageType(mimeType: string)
  {
    StartsWith(mimeType, "image/")
  }

  function CheckUpload(f: FileInfo): (v: Verdict)
    ensures v == Accepted <==> IsImageType(f.mimeType) && f.size <= MaxUploadBytes
    ensures v == NotAnImage <==> !IsImageType(f.mimeType)
    ensures v == TooLarge <==> IsImageType(f.mimeType) && f.size > MaxUploadBytes
  {
    if !IsImageType(f.mimeType) then NotAnImage
    else if f.size > MaxUploadBytes then TooLarge
    else Accepted
  }

  /** The message the page shows for a rejected file; `None` when the file is
      accepted and sent for analysis. */
  function ClientError(f: FileInfo): (msg: Option<string>)
    ensures msg.None? <==> CheckUpload(f) == Accepted
  {
    match CheckUpload(f)
    case NotAnImage => Some("Please upload a valid image file.")
    case TooLarge => Some("File size too large. Maximum size is 4MB.")
    case Accepted => None
  }

  /** The route's rejection, as an HTTP status and message, for a file that
      fails the checks; `None` when it passes them. */
  function ServerError(f: FileInfo): (e: Option<(nat, string)>)
    ensures e.None? <==> CheckUpload(f) == Accepted
    ensures e.Some? ==> e.value.0 == 400
  {
    match CheckUpload(f)
    case NotAnImage => Some((400, "Invalid file type. Please upload an image."))
    case TooLarge => Some((400, "File size too large. Maximum size is 4MB."))
    case Accepted => None
  }

  /** The page and the route accept exactly the same files, and reject them
      for the same reason. */
  lemma ClientServerAgree(f: FileInfo)
    ensures ClientError(f).None? <==> ServerError(f).None?
    ensures ClientError(f).Some? ==>
      (ClientError(f).value == "File size too large. Maximum size is 4MB." <==>
       ServerError(f).value.1 == "File size too large. Maximum size is 4MB.")
  {
  }

  /** Exactly 4 MiB is accepted, one byte more is not, and a file that is not
      an image is refused for its type whatever its size. */
  lemma SizeBoundary(mimeType: string)
    requires IsImageType(mimeType)
    ensures CheckUpload(FileInfo(mimeType, 4194304)) == Accepted
    ensures CheckUpload(FileInfo(mimeType, 4194305)) == TooLarge
  {
  }

  lemma TypeCheckedFirst(f: FileInfo)
    requires !IsImageType(f.mimeType)
    ensures ClientError(f) == Some("Please upload a valid image file.")
    ensures ServerError(f) == Some((400, "Invalid file type. Please upload an image."))
  {
  }
}

=== FILE: valuation.dfy ===
/** `calculateTotal` of the page: the estimated value of the listed items,
    read from their free-text price strings. Arithmetic is exact; the page's
    `Number` conversion and float addition are not modelled. */
module Valuation {
  import opened Wrappers
  import opened Text
  import opened Analysis

  // ---------------------------------------------------------------------------
  // Digit runs: the matches of `/\d+/g`

  predicate AllDigits(s: string)
  {
    forall i :: 0 <= i < |s| ==> IsDigit(s[i])
  }

  /** The maximal runs of ASCII digits in `s`, left to right. */
  function DigitRuns(s: string): (runs: seq<string>)
    ensures forall i :: 0 <= i < |runs| ==> |runs[i]| > 0 && AllDigits(runs[i])
    decreases |s|
  {
    if |s| == 0 then []
    else if !IsDigit(s[0]) then DigitRuns(s[1..])
    else
      var n := DigitRun(s);
      [s[..n]] + DigitRuns(s[n..])
  }

  /** The text around the runs: one gap before each run and one after the
      last, so that `Weave(DigitRuns(s), Gaps(s)) == s`. */
  function Gaps(s: string): (gaps: seq<string>)
    ensures |gaps| == |DigitRuns(s)| + 1
    decreases |s|
  {
    if |s| == 0 then [""]
    else if !IsDigit(s[0]) then
      var g := Gaps(s[1..]);
      [[s[0]] + g[0]] + g[1..]
    else
      var n := DigitRun(s);
      [""] + Gaps(s[n..])
  }

  /** `gaps[0] + runs[0] + gaps[1] + runs[1] + … + gaps[|runs|]`. */
  function Weave(runs: seq<string>, gaps: seq<string>): (s: string)
    requires |gaps| == |runs| + 1
    decreases |runs|
  {
    if |runs| == 0 then gaps[0] else gaps[0] + runs[0] + Weave(runs[1..], gaps[1..])
  }

  /** Runs separated by digit-free gaps; the gaps between two runs are not
      empty, so that neighbouring runs do not merge. */
  ghost predicate Separated(runs: seq<string>, gaps: seq<string>)
  {
    && |gaps| == |runs| + 1
    && (forall i :: 0 <= i < |runs| ==> |runs[i]| > 0 && AllDigits(runs[i]))
    && (forall i :: 0 <= i < |gaps| ==> NoDigit(gaps[i]))
    && (forall i :: 0 < i < |runs| ==> |gaps[i]| > 0)
  }

  predicate NoDigit(s: string)
  {
    forall i :: 0 <= i < |s| ==> !IsDigit(s[i])
  }

  /** The runs and the gaps reassemble the input. */
  lemma {:induction false} WeaveRunsAndGaps(s: string)
    ensures Weave(DigitRuns(s), Gaps(s)) == s
    decreases |s|
  {
    if |s| == 0 {
    } else if !IsDigit(s[0]) {
      WeaveRunsAndGaps(s[1..]);
      SplitAtNonDigit(s);
      WeaveWiderGap(DigitRuns(s[1..]), Gaps(s[1..]), [s[0]]);
    } else {
      var n := DigitRun(s);
      WeaveRunsAndGaps(s[n..]);
      SplitAtRun(s);
      WeaveNewRun(DigitRuns(s[n..]), Gaps(s[n..]), s[..n]);
    }
  }

  /** How a leading non-digit enters the runs and the gaps. */
  lemma SplitAtNonDigit(s: string)
    requires |s| > 0 && !IsDigit(s[0])
    ensures s == [s[0]] + s[1..]
    ensures DigitRuns(s) == DigitRuns(s[1..])
    ensures Gaps(s) == [[s[0]] + Gaps(s[1..])[0]] + Gaps(s[1..])[1..]
  {
  }

  /** How a leading run enters the runs and the gaps. */
  lemma SplitAtRun(s: string)
    requires |s| > 0 && IsDigit(s[0])
    ensures s == s[..DigitRun(s)] + s[DigitRun(s)..]
    ensures DigitRuns(s) == [s[..DigitRun(s)]] + DigitRuns(s[DigitRun(s)..])
    ensures Gaps(s) == [""] + Gaps(s[DigitRun(s)..])
  {
  }

  /** Text put before the first gap comes first in the weave. */
  lemma WeaveWiderGap(runs: seq<string>, g: seq<string>, x: string)
    requires |g| == |runs| + 1
    ensures Weave(runs, [x + g[0]] + g[1..]) == x + Weave(runs, g)
  {
    var gs := [x + g[0]] + g[1..];
    if |runs| > 0 {
      assert gs[1..] == g[1..];
    }
  }

  /** A run with an empty gap before it comes first in the weave. */
  lemma WeaveNewRun(runs: seq<string>, g: seq<string>, r: string)
    requires |g| == |runs| + 1
    ensures Weave([r] + runs, [""] + g) == r + Weave(runs, g)
  {
    var rs, gs := [r] + runs, [""] + g;
    assert rs[1..] == runs && gs[1..] == g;
    assert Weave(rs, gs) == gs[0] + rs[0] + Weave(runs, g);
    assert gs[0] + rs[0] == r;
  }

  /** The runs and the gaps have the shape `Weave` reads back. */
  lemma {:induction false} RunsAndGapsSeparated(s: string)
    ensures Separated(DigitRuns(s), Gaps(s))
    decreases |s|
  {
    if |s| == 0 {
    } else if !IsDigit(s[0]) {
      RunsAndGapsSeparated(s[1..]);
      SplitAtNonDigit(s);
      SeparatedWiderGap(DigitRuns(s[1..]), Gaps(s[1..]), [s[0]]);
    } else {
      var n := DigitRun(s);
      RunsAndGapsSeparated(s[n..]);
      SplitAtRun(s);
      assert |Gaps(s[n..])[0]| > 0 || DigitRuns(s[n..]) == [] by {
        if n < |s| {
          NonDigitStartOpensGap(s[n..]);
        }
      }
      SeparatedNewRun(DigitRuns(s[n..]), Gaps(s[n..]), s[..n]);
    }
  }

  /** Widening the first gap with non-digits keeps the shape. */
  lemma SeparatedWiderGap(runs: seq<string>, g: seq<string>, x: string)
    requires Separated(runs, g) && NoDigit(x)
    ensures Separated(runs, [x + g[0]] + g[1..])
  {
    var gs := [x + g[0]] + g[1..];
    assert NoDigit(gs[0]);
    assert forall i :: 0 < i < |gs| ==> gs[i] == g[i];
  }

  /** A run put in front, after an empty gap, keeps the shape when the old
      first gap is not empty. */
  lemma SeparatedNewRun(runs: seq<string>, g: seq<string>, r: string)
    requires Separated(runs, g) && |r| > 0 && AllDigits(r)
    requires |g[0]| > 0 || runs == []
    ensures Separated([r] + runs, [""] + g)
  {
    var rs, gs := [r] + runs, [""] + g;
    assert forall i :: 0 < i < |gs| ==> gs[i] == g[i - 1];
    assert forall i :: 0 < i < |rs| ==> rs[i] == runs[i - 1];
  }

  /** A string that starts with a non-digit has a non-empty first gap. */
  lemma NonDigitStartOpensGap(s: string)
    requires |s| > 0 && !IsDigit(s[0])
    ensures |Gaps(s)[0]| > 0
  {
  }

  /** A digit-free prefix adds no run. */
  lemma {:induction false} NoDigitPrefix(g: string, s: string)
    requires NoDigit(g)
    ensures DigitRuns(g + s) == DigitRuns(s)
    decreases |g|
  {
    if |g| > 0 {
      assert (g + s)[1..] == g[1..] + s;
      NoDigitPrefix(g[1..], s);
    } else {
      assert g + s == s;
    }
  }

  /** A run followed by the end or by a non-digit is read whole. */
  lemma RunPrefix(r: string, s: string)
    requires |r| > 0 && AllDigits(r)
    requires s == [] || !IsDigit(s[0])
    ensures DigitRuns(r + s) == [r] + DigitRuns(s)
  {
    var t := r + s;
    RunLength(r, s);
    assert t[..|r|] == r && t[|r|..] == s;
  }

  lemma {:induction false} RunLength(r: string, s: string)
    requires AllDigits(r)
    requires s == [] || !IsDigit(s[0])
    ensures DigitRun(r + s) == |r|
    decreases |r|
  {
    if |r| > 0 {
      assert (r + s)[1..] == r[1..] + s;
      RunLength(r[1..], s);
    } else {
      assert r + s == s;
    }
  }

  /** Separated runs are found again, exactly: `/\d+/g` returns each run
      whole and nothing from the gaps. */
  lemma {:induction false} DigitRunsOfWeave(runs: seq<string>, gaps: seq<string>)
    requires Separated(runs, gaps)
    ensures DigitRuns(Weave(runs, gaps)) == runs
    decreases |runs|
  {
    if |runs| == 0 {
      NoDigitPrefix(gaps[0], []);
      assert gaps[0] + [] == gaps[0];
    } else {
      SeparatedTail(runs, gaps);
      DigitRunsOfWeave(runs[1..], gaps[1..]);
      WeaveTailStart(runs, gaps);
      RunAfterGap(gaps[0], runs[0], Weave(runs[1..], gaps[1..]), runs[1..]);
      assert [runs[0]] + runs[1..] == runs;
    }
  }

  lemma SeparatedTail(runs: seq<string>, gaps: seq<string>)
    requires Separated(runs, gaps) && |runs| > 0
    ensures Separated(runs[1..], gaps[1..])
  {
    assert forall i :: 0 < i < |runs[1..]| ==> gaps[1..][i] == gaps[i + 1];
  }

  /** What follows the first run of a weave starts with a non-digit. */
  lemma WeaveTailStart(runs: seq<string>, gaps: seq<string>)
    requires Separated(runs, gaps) && |runs| > 0
    ensures var rest := Weave(runs[1..], gaps[1..]); rest == [] || !IsDigit(rest[0])
  {
    var rest := Weave(runs[1..], gaps[1..]);
    if |runs| > 1 {
      assert rest == gaps[1] + (runs[1..][0] + Weave(runs[1..][1..], gaps[1..][1..]));
      assert |gaps[1]| > 0 && rest[0] == gaps[1][0];
    } else {
      assert rest == gaps[1];
    }
  }

  /** A gap, a run and a tail starting with a non-digit: the run comes first. */
  lemma RunAfterGap(gap: string, run: string, rest: string, tail: seq<string>)
    requires NoDigit(gap) && |run| > 0 && AllDigits(run)
    requires rest == [] || !IsDigit(rest[0])
    requires DigitRuns(rest) == tail
    ensures DigitRuns(gap + run + rest) == [run] + tail
  {
    RunPrefix(run, rest);
    assert gap + run + rest == gap + (run + rest);
    NoDigitPrefix(gap, run + rest);
  }

  /** `/\d+/g` finds nothing exactly when there is no digit. */
  lemma {:induction false} NoRunsIffNoDigit(s: string)
    ensures DigitRuns(s) == [] <==> NoDigit(s)
    decreases |s|
  {
    if |s| > 0 {
      if !IsDigit(s[0]) {
        NoRunsIffNoDigit(s[1..]);
        assert NoDigit(s) <==> NoDigit(s[1..]) by {
          assert forall i :: 0 < i < |s| ==> s[i] == s[1..][i - 1];
        }
      }
    }
  }

  // ---------------------------------------------------------------------------
  // Numbers

  function DigitValue(c: char): (d: nat)
    requires IsDigit(c)
    ensures d <= 9
  {
    c as int - '0' as int
  }

  function DigitChar(d: nat): (c: char)
    requires d <= 9
    ensures IsDigit(c) && DigitValue(c) == d
  {
    ('0' as int + d) as char
  }

  /** `Number(run)` for a run of ASCII digits, read exactly. */
  function DecimalValue(s: string): nat
    requires AllDigits(s)
    decreases |s|
  {
    if |s| == 0 then 0 else 10 * DecimalValue(s[..|s| - 1]) + DigitValue(s[|s| - 1])
  }

  /** The shortest decimal numeral of `n`. */
  function Numeral(n: nat): (s: string)
    ensures |s| > 0 && AllDigits(s)
    ensures n >= 10 ==> s[0] != '0'
    decreases n
  {
    if n < 10 then [DigitChar(n)] else Numeral(n / 10) + [DigitChar(n % 10)]
  }

  /** Reading a numeral gives back its number. */
  lemma {:induction false} DecimalValueOfNumeral(n: nat)
    ensures DecimalValue(Numeral(n)) == n
    decreases n
  {
    if n >= 10 {
      var s := Numeral(n);
      assert s[..|s| - 1] == Numeral(n / 10);
      DecimalValueOfNumeral(n / 10);
    }
  }

  /** Leading zeros do not change the value (`Number("007")` is 7). */
  lemma {:induction false} LeadingZeroIgnored(s: string)
    requires AllDigits(s)
    ensures DecimalValue("0" + s) == DecimalValue(s)
    decreases |s|
  {
    if |s| > 0 {
      var t := "0" + s;
      assert t[..|t| - 1] == "0" + s[..|s| - 1];
      LeadingZeroIgnored(s[..|s| - 1]);
    } else {
      assert "0" + s == "0";
    }
  }

  // ---------------------------------------------------------------------------
  // The total

  /** What one item adds to the total: nothing for the exact text "N/A" or
      a price without digits, the number for one run, and the mean of the
      first two runs otherwise (a range "low-high"). */
  function PriceValue(price: string): (v: real)
    ensures v >= 0.0
  {
    if price == "N/A" then 0.0
    else
      var runs := DigitRuns(price);
      if |runs| == 0 then 0.0
      else if |runs| == 1 then DecimalValue(runs[0]) as real
      else (DecimalValue(runs[0]) + DecimalValue(runs[1])) as real / 2.0
  }

  /** The contribution is zero for "N/A" and for a price without digits; any
      other contribution lies between the first two numbers of the price
      (the one number, when there is only one). */
  lemma PriceValueBounds(price: string)
    ensures PriceValue(price) >= 0.0
    ensures price == "N/A" || NoDigit(price) ==> PriceValue(price) == 0.0
    ensures var runs := DigitRuns(price);
      price != "N/A" && |runs| > 0 ==>
      var a := DecimalValue(runs[0]) as real;
      var b := if |runs| > 1 then DecimalValue(runs[1]) as real else a;
      (a <= PriceValue(price) <= b || b <= PriceValue(price) <= a)
  {
    NoRunsIffNoDigit(price);
  }

  /** The price differs from "N/A" and has at least one digit whenever it
      contributes. */
  lemma PositiveValueHasDigits(price: string)
    ensures PriceValue(price) > 0.0 ==> price != "N/A" && !NoDigit(price)
  {
    NoRunsIffNoDigit(price);
  }

  /** Every record carries a price: `calculateTotal` reads each price as a
      string and throws on a record without one. */
  predicate AllPriced(items: seq<Record>)
  {
    forall i :: 0 <= i < |items| ==> items[i].estimatedPrice.Some?
  }

  /** `items.reduce((total, item) => total + value(item), 0)`: a left fold. */
  function Total(items: seq<Record>): (t: real)
    requires AllPriced(items)
    ensures t >= 0.0
    decreases |items|
  {
    if |items| == 0 then 0.0
    else
      var last := items[|items| - 1];
      PriceValueBounds(last.estimatedPrice.value);
      Total(items[..|items| - 1]) + PriceValue(last.estimatedPrice.value)
  }

  /** The same sum taken from the right: the order of the items does not
      matter to an exact sum. */
  function SumFromRight(items: seq<Record>): real
    requires AllPriced(items)
    decreases |items|
  {
    if |items| == 0 then 0.0 else PriceValue(items[0].estimatedPrice.value) + SumFromRight(items[1..])
  }

  /** The total of a concatenation is the sum of the totals. */
  lemma {:induction false} TotalAppend(a: seq<Record>, b: seq<Record>)
    requires AllPriced(a) && AllPriced(b)
    ensures AllPriced(a + b)
    ensures Total(a + b) == Total(a) + Total(b)
    decreases |b|
  {
    if |b| == 0 {
      assert a + b == a;
    } else {
      var c := a + b;
      assert c[..|c| - 1] == a + b[..|b| - 1];
      assert c[|c| - 1] == b[|b| - 1];
      TotalAppend(a, b[..|b| - 1]);
    }
  }

  /** Adding items never lowers the total. */
  lemma TotalMonotone(a: seq<Record>, b: seq<Record>)
    requires AllPriced(a) && AllPriced(b)
    ensures AllPriced(a + b)
    ensures Total(a) <= Total(a + b)
  {
    TotalAppend(a, b);
  }

  /** The left fold equals the sum from the right. */
  lemma {:induction false} TotalIsSum(items: seq<Record>)
    requires AllPriced(items)
    ensures Total(items) == SumFromRight(items)
    decreases |items|
  {
    if |items| > 0 {
      var head, tail := items[..1], items[1..];
      assert items == head + tail;
      TotalAppend(head, tail);
      assert head[..0] == [];
      TotalIsSum(tail);
    }
  }

  /** The fallback record's price "N/A" adds nothing. */
  lemma FallbackTotalIsZero(text: string)
    ensures AllPriced([FallbackRecord(text)])
    ensures Total([FallbackRecord(text)]) == 0.0
  {
    NoPriceTotal(FallbackRecord(text));
  }

  /** An item priced "N/A" alone totals zero. */
  lemma NoPriceTotal(r: Record)
    requires r.estimatedPrice == Some("N/A")
    ensures AllPriced([r])
    ensures Total([r]) == 0.0
  {
    assert [r][..0] == [];
  }

  // ---------------------------------------------------------------------------
  // The total without the missing-price failure

  /** What one item adds when a missing price counts as nothing. */
  function ItemValue(r: Record): (v: real)
    ensures v >= 0.0
    ensures r.estimatedPrice.None? ==> v == 0.0
    ensures r.estimatedPrice.Some? ==> v == PriceValue(r.estimatedPrice.value)
  {
    match r.estimatedPrice
    case None => 0.0
    case Some(p) => PriceValueBounds(p); PriceValue(p)
  }

  /** The total as the page evidently means it: defined for every list of
      records, including those the line parser builds without a price. */
  function LenientTotal(items: seq<Record>): (t: real)
    ensures t >= 0.0
    decreases |items|
  {
    if |items| == 0 then 0.0
    else LenientTotal(items[..|items| - 1]) + ItemValue(items[|items| - 1])
  }

  /** On priced records the lenient total is the page's total. */
  lemma {:induction false} LenientTotalAgrees(items: seq<Record>)
    requires AllPriced(items)
    ensures LenientTotal(items) == Total(items)
    decreases |items|
  {
    if |items| > 0 {
      var init := items[..|items| - 1];
      assert AllPriced(init) by {
        assert forall i :: 0 <= i < |init| ==> init[i] == items[i];
      }
      LenientTotalAgrees(init);
    }
  }

  /** Records without a price add nothing to the lenient total. */
  lemma {:induction false} UnpricedAddNothing(items: seq<Record>)
    requires forall i :: 0 <= i < |items| ==> items[i].estimatedPrice.None?
    ensures LenientTotal(items) == 0.0
    decreases |items|
  {
    if |items| > 0 {
      var init := items[..|items| - 1];
      assert forall i :: 0 <= i < |init| ==> init[i] == items[i];
      UnpricedAddNothing(init);
    }
  }
}

=== FILE: wrappers.dfy ===
/** The conventional optional value, used for record fields that may be absent
    and for the result of the JSON parser, which may fail. */
module Wrappers {

  datatype Option<+T> = None | Some(value: T)

}
